=== FILE: README.md ===
# Looking Glass master server: a Dafny model

The master server of a looking-glass service accepts ping and MTR requests
for a target host and one of its configured nodes. It checks the request and
validates the target. The command then runs either on the master itself or
on a remote "slave" node, over HTTP with an API key. The server also keeps a
registry of the slave nodes and probes their `/health` endpoint to mark them
online or offline.

The model covers that core of `master-server.js` as pure functions over
immutable data:

| file | module | what it models |
|---|---|---|
| `values.dfy` | `Values` | optional values, settled results, JSON values, JavaScript truthiness, `String.prototype.includes`, `Array.prototype.join` |
| `decimal.dfy` | `Decimal` | the decimal rendering of an exit code and its parse back |
| `target.dfy` | `Target` | `isValidTarget`: the length limit, the IPv4 and hostname regular expressions, the denylist |
| `local_exec.dfy` | `LocalExec` | how `executeLocalCommand` settles: stdout, stderr, the generic exit message, the spawn error, the timeout |
| `fleet.dfy` | `Fleet` | configured nodes, `config.nodes.find`, the `slaveNodes` registry, `loadSlaveNodes` |
| `slave_client.dfy` | `SlaveClient` | `sendToSlave`: the URL, the headers, GET versus POST, the timeout, the error wrapping |
| `health.dfy` | `Health` | `checkSlaveHealth` and one round of `performHealthCheck` as state transitions |
| `dispatch.dfy` | `Dispatch` | the `/api/ping` and `/api/mtr` handlers: checks, venue, response |

Modelling choices:

- **The registry.** `slaveNodes` is a JavaScript `Map`, so it is a sequence of records with distinct ids. `Map.set` on an existing key replaces the record where it stands.
- **The outside world is passed in as parameters.** The HTTP client is `net: HttpRequest -> Transport`, which returns a reply body or a failure message. The child process is `run`, which returns the first event that settles the run. The clock is a `now` string.
- **The health round.** It fires all probes and waits for them with `Promise.allSettled`. The model is a sequential fold over the tracked ids, and `Health.ProbeOrderIrrelevant` shows that the order cannot change the outcome.
- **Target length.** JavaScript's `length` counts UTF-16 code units, so the model defines `Utf16Length`. The validator turns out to accept only ASCII text, where the two lengths agree.
- **The two regular expressions.** Each is decided on the dot-separated pieces of the target: `Split`, `HostnameMatch`, `Ipv4Match`. Each is also stated literally as "labels, or four octets, joined with dots". The two forms are proved equal, and a single left-to-right scanner (`MatchHostname`) is proved to decide the hostname pattern.

Observations about the code, proved about the model:

- **The IPv4 test never decides the verdict.** Every IPv4 match is also a hostname match, because an octet is an all-digit label. So `999.1.1.1` is not an IPv4 address but is still accepted (`Target.OutOfRangeQuadAccepted`).
- **A failure always reports the local command line.** The `catch` blocks spell the line out literally, so a request forwarded to a slave reports the master's local command line (`Dispatch.ExecutedOutcome`).
- **An IPv6 slave host gives an ambiguous URL.** The URL is built as `http://${host}:${port}` without brackets, so a host containing a colon cannot be told apart from the port. `SlaveClient.UrlRoundTrip` therefore requires a host without a colon.
- **A request for a forgotten slave fails with 500.** A node of type `slave` whose id is not in the registry fails with "找不到節點: <id>", not with 404 (`Dispatch.RemoteRunResponse`).

## Model

| member | source | states |
|---|---|---|
| Values.IncludesIffOccurs | master-server.js:163 | `target.includes(blocked)` holds exactly when `blocked` occurs at some position of `target` |
| Target.ValidTargetIff | master-server.js:154-166 | a target is valid exactly when it has at most 253 characters, matches the hostname regex, and contains no denylist entry at any position |
| Target.RejectedTargets | master-server.js:162-163 | any target containing a denylist entry is rejected, whatever its syntax |
| Target.EmptyDenylist | master-server.js:162 | with no denylist configured, only the length and the grammar decide |
| Target.EmptyTargetRejected | master-server.js:160 | the empty string matches neither regex and is rejected |
| Target.HostnameMatchIsPattern | master-server.js:157 | the piece-by-piece check is the hostname regex: a label, then any number of dot-label groups |
| Target.Ipv4MatchIsPattern | master-server.js:156 | the piece-by-piece check is the IPv4 regex: exactly four octets joined by dots |
| Target.OctetIffSmallNumber | master-server.js:156 | the octet alternatives accept exactly the strings of one to three digits whose value is at most 255 |
| Target.Ipv4ImpliesHostname | master-server.js:156-160 | every IPv4 match is also a hostname match |
| Target.OutOfRangeQuadAccepted | master-server.js:154-166 | "999.1.1.1" fails the IPv4 regex yet is a valid target |
| Target.Utf16LengthBounds | master-server.js:159 | the UTF-16 length is never below the character count and equals it on ASCII text |
| Target.HostnameAscii | master-server.js:157 | a hostname match is pure ASCII, so the length limit counts characters |
| Target.JoinSplit | master-server.js:157 | joining the dot-separated pieces with dots gives the string back |
| Target.SplitJoin | master-server.js:157 | splitting dot-free pieces joined by dots gives the pieces back |
| Target.MatchHostname | master-server.js:157 | one left-to-right scan answers true exactly when the hostname regex matches |
| LocalExec.Settle | master-server.js:187-204 | the run succeeds exactly on exit code 0, with stdout; otherwise it fails with stderr, or with a message carrying the exit code when stderr is empty, or with the spawn error |
| LocalExec.ExitMessageRoundTrip | master-server.js:191 | the generic failure message names the exit code, including `null`, and the code can be read back from it |
| LocalExec.ExitMessagesDistinguishCodes | master-server.js:191 | two silent failures give the same message only when their exit codes agree |
| LocalExec.TimeoutIsNotAnExit | master-server.js:199-204 | the timeout message differs from every generic exit message |
| Fleet.FindNode | master-server.js:278 | `find` yields nothing exactly when no node has the id, and otherwise the first node carrying it |
| Fleet.Put | master-server.js:53-57 | `Map.set` makes the key map to the new record, leaves every other key alone, keeps keys distinct and keeps existing positions |
| Fleet.LoadSlaveNodes | master-server.js:50-61 | loading yields a registry with distinct keys |
| Fleet.LoadTracksSlaves | master-server.js:51-52 | an id is registered exactly when some configured node with that id has type "slave" and a `slaveConfig` |
| Fleet.LoadFresh | master-server.js:53-57 | every loaded record is a copy of its node, never checked and not healthy |
| Fleet.LoadLastWins | master-server.js:51-57 | when an id is configured twice, the last tracked node with it is the one registered |
| SlaveClient.ShapeRequest | master-server.js:64-82 | an unknown id fails with "找不到節點: <id>", and a record without `slaveConfig` fails reading `host`. Every other registered node gets a request: to `http://host:port<endpoint>`, with the JSON content type and the API key, as POST with the data exactly when the data is truthy, and with the given timeout |
| SlaveClient.SendToSlave | master-server.js:64-89 | a delivered reply is returned as is, and a success is always a delivered reply. A transport failure is rethrown with the "節點通信失敗: " prefix. An error raised before sending (unknown id, missing `slaveConfig`) is passed on unwrapped |
| SlaveClient.UrlRoundTrip | master-server.js:70 | when the host has no colon and the endpoint does not start with a digit, host, port and endpoint can be read back from the URL |
| SlaveClient.ShapeDependsOnCopies | master-server.js:64-82 | the request depends only on the registered node copies, not on their health |
| Health.LoadedWellFormed | master-server.js:50-61 | right after loading, keys are distinct and every record is a slave with its configuration |
| Health.ProbesKeepWellFormed | master-server.js:92-148 | a probe and a full round keep the registry well formed |
| Health.ProbeDependsOnCopies | master-server.js:94 | a probe's verdict never depends on the health already recorded |
| Health.CheckSlaveHealth | master-server.js:92-120 | the probe returns the truthiness of the reply's `success` field, false when the call throws; it stamps only the probed record and sets the status of only the first configured node with the id; an unknown id changes nothing |
| Health.FailedProbeTakesNodeOffline | master-server.js:107-118 | after a failed probe the record is unhealthy and stamped, and the node is offline |
| Health.ProbeEachEffect | master-server.js:136-141 | each listed id is probed once against the starting registry, and nothing else changes |
| Health.HealthCycleEffect | master-server.js:134-141 | the state `performHealthCheck` leaves: every record is stamped with its own probe's verdict, the first configured node of every tracked id gets the matching status, and nothing else changes |
| Health.ProbeOrderIrrelevant | master-server.js:136-141 | any two orders of the same probes end in the same state |
| Health.PerformHealthCheck | master-server.js:134-144 | the healthy count is the number of tracked nodes whose probe succeeded, and the rest are the failures |
| Health.HealthyCountIsSize | master-server.js:142-143 | the `filter(...).length` count is the size of the set of healthy records |
| Dispatch.Decide | master-server.js:268-309 | the checks run in order: a missing field gives 400, an unknown node 404, an offline node 503, an invalid target 400; otherwise the request runs on the first node with the id, forwarded exactly when its type is "slave" |
| Dispatch.RejectionRunsNothing | master-server.js:271-298 | a refused request runs no command and sends nothing; it answers with exactly the status and message of the failed check (400 "缺少必要參數", 404 "節點不存在", 503 "節點目前離線" or 400 "無效的目標主機") and `success: false` |
| Dispatch.ExecutionGate | master-server.js:271-309 | an executed request has both fields, runs on the first configured node with the id, that node is online, the target passes `isValidTarget`, and it is forwarded exactly when the node is a slave |
| Dispatch.ExecutedOutcome | master-server.js:300-334 | an executed request answers 200 exactly when its run succeeded and 500 exactly when it failed; a failure body holds the error and the local command line |
| Dispatch.LocalRunResponse | master-server.js:306-326 | a local run answers 200 exactly on exit code 0, with the command line, stdout, node id, time and node; otherwise 500 with the settled error, the timeout message when the timer won |
| Dispatch.RemoteRunResponse | master-server.js:303-305 | a forwarded request sends one POST with `{ target }` to the slave's URL and endpoint; a delivered reply is passed on with the node added, a transport failure gives 500, and an unregistered slave gives 500 with "找不到節點: <id>" |
| Dispatch.ReplyFieldsKept | master-server.js:319-326 | a forwarded request's response has status 200 and keeps every field of the reply except `node`, which names the node that ran the request |
| Dispatch.LocalPlan | master-server.js:306-309 | ping runs `ping -c 4 -W 5 <target>` with 20000 ms and MTR runs `mtr --report --report-cycles 10 <target>` with 90000 ms; the arguments end with the target, and the command line is the one the `catch` block reports |
| Dispatch.RemotePlan | master-server.js:303-305 | ping calls `/ping` with 30000 ms and MTR calls `/mtr` with 90000 ms; the call carries exactly `{ target }`, a truthy payload and so sent as POST, and allows the slave at least the time the local run gets |
| Dispatch.RunPlan | master-server.js:303-317 | a local plan succeeds exactly when `executeLocalCommand` settles with stdout, yielding its command line and output; a slave plan succeeds exactly when `sendToSlave` does, yielding the reply; an error keeps its message |
| Dispatch.Respond | master-server.js:319-334 | 200 exactly when the run succeeded, 500 exactly when it failed; a failure reports `success: false` and the error, with no `node`; a success names the node, and a local success reports `success: true`, the command and the output |
| Dispatch.Handle | master-server.js:268-335 | the status is always 200, 400, 404, 500 or 503; it is 400, 404 or 503 exactly when the checks refuse the request; every non-200 body reports `success: false` |
| Health.ProbeHealthy | master-server.js:94-106 | a probe is healthy exactly when the id is registered with a configuration and a GET with no body and a 5000 ms timeout is delivered with a truthy `success` field |
| Health.ProbeEach | master-server.js:136-141 | the probes of a round leave every node copy and every configured id as they were (`Health.ProbeEachEffect` states what changes) |
| Target.IsValidTarget | master-server.js:154-166 | a valid target is at most 253 characters, matches the hostname regex, and includes no denylist entry (`Target.ValidTargetIff` states the converse) |
| Values.Includes | master-server.js:163 | a fragment at the start is found, and a found fragment is no longer than the string (`Values.IncludesIffOccurs` states the full meaning) |
| Dispatch.FailureCommandIsLocalCommandLine | master-server.js:328-333 | the command reported on failure is the local command line, `command` followed by the arguments joined by spaces |
| Dispatch.PingCommandLine | master-server.js:308-312 | the ping command line is "ping -c 4 -W 5 <target>" |
| Dispatch.MtrCommandLine | master-server.js:378-382 | the MTR command line is "mtr --report --report-cycles 10 <target>" |
| Dispatch.ProbeGatesRequests | master-server.js:285-290 | right after a probe of a tracked node, a request naming it gets 503 exactly when the probe failed |
| Dispatch.LocalPingExample | master-server.js:306-326 | pinging 8.8.8.8 on the master's own node, with exit code 0, answers 200 with "ping -c 4 -W 5 8.8.8.8" and the output |
| Fleet.Lookup | master-server.js:65 | `slaveNodes.get(id)` finds nothing exactly when the id is not registered, and otherwise a registered record with that id, the only one when ids are distinct |
| Values.Truthy | master-server.js:78 | a JSON value is truthy exactly when it is not `null`, `false`, `0` or the empty string |
| Values.Present | master-server.js:271 | a request field counts as given exactly when it is present and not the empty string |
| Dispatch.PingArgsJoined | master-server.js:312 | `args.join(' ')` of the ping arguments is "-c 4 -W 5 <target>": the arguments in order, one space between neighbours |
| Dispatch.MtrArgsJoined | master-server.js:382 | `args.join(' ')` of the MTR arguments is "--report --report-cycles 10 <target>" |
| LocalExec.CodeText | master-server.js:191 | `${code}` is "null" exactly for a `null` code, and otherwise an optional minus sign and digits without leading zeros that read back as the code |
| Decimal.IntToString | master-server.js:191 | the decimal text of an integer starts with a minus sign exactly when it is negative, continues with digits without leading zeros, and reads back as the integer |
| Dispatch.NodeSummary | master-server.js:321-325 | the `node` field holds exactly `id`, `name` and `location`, copied from the node as strings |
| Dispatch.UnderscoreRejected | master-server.js:292-297 | "bad_target" is refused with 400 "無效的目標主機" |

## Left out

- The HTTP framework is not modelled: CORS, the rate limiter, static files and JSON body parsing (master-server.js:21-39). Requests reach the handlers already parsed.
- Loading `master-config.json` and exiting when it is unreadable (master-server.js:12-19) are left out. The nodes and the denylist are parameters.
- The routes `/api/nodes`, `/api/nodes/:id` (with its `/info` call to the slave), `/api/health`, the error handler, the signal handlers and `listen` are left out. They only read state, or they are process plumbing.
- The HTTP client (axios) is a function parameter, so its redirects, status-code rejections, encodings and real timeouts are not modelled. A reply that is not a JSON object is left out as well: `Body` is a map, so spreading a string or array reply is not modelled.
- `spawn`, the stdout and stderr streams and the race between `close`, `error` and the timer are summarised by the first event (`ProcessEvent`). A timed-out process killed by `spawn`'s own `timeout` option may close with code `null` before the timer fires; `run` may return either event.
- `setInterval` and the two-minute period are left out (master-server.js:123-131), so overlapping rounds are not modelled. One round is `Health.PerformHealthCheck`.
- `Date` is not modelled: the time is the `now` parameter, and every probe of a round gets the same stamp.
- Logging with `console.log` and `console.error` is not modelled.
- Request fields that are not strings are left out. `target` and `nodeId` are optional strings; a truthy number or object is not modelled.
- JSON numbers are integers. Fractions and `NaN` are not modelled, and they play no part in the core.
- Health.CheckSlaveHealth: the record stores the truthiness of the reply's `success` field, whereas the code stores the raw value (master-server.js:98), and the probe returns a bool where the code returns the raw `result.success` (master-server.js:106); `Promise.allSettled` discards that return value. Within the modelled core only its truthiness is read: the healthy count filters on it (master-server.js:143). The left-out `/api/health` route, however, reports the raw value as `isHealthy` (master-server.js:409-413), so a non-boolean `success` would show there and the model does not reproduce it.
- Values.IncludesIffOccurs: works on code points, whereas JavaScript's `includes` works on UTF-16 code units. The two differ only for lone surrogates, which a valid target cannot contain.
- `performHealthCheck`'s own `catch` (master-server.js:145-147) is left out, because `Promise.allSettled` never rejects.

=== FILE: decimal.dfy ===
/** Decimal digits and the decimal text of numbers, as JavaScript's template
    literals render them (`${n}`): used for exit codes in error messages, for
    the port in a slave node's URL, and for reading IPv4 octets. */
module Decimal {
  import opened Values

  predicate IsDigit(c: char) {
    '0' <= c <= '9'
  }

  predicate AllDigits(s: string) {
    forall i :: 0 <= i < |s| ==> IsDigit(s[i])
  }

  function DigitValue(c: char): (d: nat)
    requires IsDigit(c)
    ensures d < 10
  {
    (c as int) - ('0' as int)
  }

  function DigitChar(d: nat): (c: char)
    requires d < 10
    ensures IsDigit(c) && DigitValue(c) == d
  {
    (('0' as int) + d) as char
  }

  /** The number a digit string denotes, most significant digit first;
      leading zeros are allowed and the empty string denotes 0. */
  function Value(s: string): nat
    requires AllDigits(s)
    decreases |s|
  {
    if |s| == 0 then 0
    else Value(s[..|s| - 1]) * 10 + DigitValue(s[|s| - 1])
  }

  /** The decimal text of a natural number, without leading zeros. */
  function NatToString(n: nat): (r: string)
    ensures |r| >= 1 && AllDigits(r)
    ensures |r| > 1 ==> r[0] != '0'
    decreases n
  {
    if n < 10 then [DigitChar(n)]
    else NatToString(n / 10) + [DigitChar(n % 10)]
  }

  /** The decimal text of an integer: a minus sign before negative ones,
      then digits without leading zeros. Reading it back gives the integer. */
  function IntToString(i: int): (r: string)
    ensures i < 0 <==> |r| > 0 && r[0] == '-'
    ensures var digits := if i < 0 then r[1..] else r;
      |digits| >= 1 && AllDigits(digits) && (|digits| > 1 ==> digits[0] != '0')
    ensures ParseInt(r) == Some(i)
  {
    if i < 0 then NegativeRoundTrip(-i); assert -(-i) == i; "-" + NatToString(-i)
    else NatRoundTrip(i); NatToString(i)
  }

  /** Reads back an optionally signed run of digits. */
  function ParseInt(s: string): Option<int> {
    if |s| >= 2 && s[0] == '-' && AllDigits(s[1..]) then Some(-(Value(s[1..]) as int))
    else if |s| >= 1 && AllDigits(s) then Some(Value(s))
    else None
  }

  /** Reading the decimal text of `n` gives `n` back. */
  lemma {:induction false} NatToStringValue(n: nat)
    ensures Value(NatToString(n)) == n
    decreases n
  {
    var r := NatToString(n);
    if n >= 10 {
      NatToStringValue(n / 10);
      assert r[..|r| - 1] == NatToString(n / 10);
    }
  }

  /** A minus sign and the digits of `n` parse back to `-n`. */
  lemma NegativeRoundTrip(n: nat)
    requires n > 0
    ensures ParseInt("-" + NatToString(n)) == Some(-(n as int))
  {
    var digits := NatToString(n);
    var s := "-" + digits;
    NatToStringValue(n);
    assert s[0] == '-' && s[1..] == digits;
    assert |s| >= 2 && AllDigits(s[1..]);
    assert Value(s[1..]) == n;
  }

  /** The digits of `n` parse back to `n`. */
  lemma NatRoundTrip(n: nat)
    ensures ParseInt(NatToString(n)) == Some(n)
  {
    var digits := NatToString(n);
    NatToStringValue(n);
    assert digits[0] != '-';
  }
}

=== FILE: dispatch.dfy ===
/** The `/api/ping` and `/api/mtr` handlers (master-server.js:268-405) as
    pure functions: the checks a request must pass, where it runs, and the
    response built from how the run settled. The two handlers differ only in
    the command, its arguments, the endpoint and the timeouts, so one model
    takes the diagnostic `Kind` as a parameter. */
module Dispatch {
  import opened Values
  import opened Target
  import opened LocalExec
  import opened Fleet
  import opened SlaveClient
  import opened Health

  datatype Kind = Ping | Mtr

  /** The request body `{ target, nodeId }`; a missing field is None. */
  datatype Request = Request(target: Option<string>, nodeId: Option<string>)

  /** Where and how a validated request runs. */
  datatype Plan =
    | RunLocally(command: string, args: seq<string>, timeoutMs: nat)
    | CallSlave(endpoint: string, payload: Json, timeoutMs: nat)

  /** The outcome of the checks: an error status, or a plan to execute on
      `node` for `target`. */
  datatype Decision =
    | Reject(status: nat, error: string)
    | Execute(node: Node, target: string, plan: Plan)

  /** A response: HTTP status and JSON body. */
  datatype Response = Response(status: nat, body: Body)

  /** What a successful run produced: the command line that ran and its
      stdout, or the slave's reply. */
  datatype Output = LocalOutput(command: string, text: string) | RemoteReply(reply: Body)

  const MissingParams: string := "缺少必要參數"
  const NoSuchNode: string := "節點不存在"
  const NodeOffline: string := "節點目前離線"
  const InvalidTarget: string := "無效的目標主機"

  /** The local command line for each diagnostic and its timeout. */
  function LocalPlan(kind: Kind, target: string): (p: Plan)
    ensures p.RunLocally? && |p.args| > 0 && p.args[|p.args| - 1] == target
    ensures CommandLine(p.command, p.args) == FailureCommand(kind, target)
    ensures kind == Ping ==>
      p.command == "ping" && p.args == ["-c", "4", "-W", "5", target] && p.timeoutMs == 20000
    ensures kind == Mtr ==>
      p.command == "mtr" && p.args == ["--report", "--report-cycles", "10", target] && p.timeoutMs == 90000
  {
    PingCommandLine(target);
    MtrCommandLine(target);
    match kind
    case Ping => RunLocally("ping", ["-c", "4", "-W", "5", target], 20000)
    case Mtr => RunLocally("mtr", ["--report", "--report-cycles", "10", target], 90000)
  }

  /** The slave endpoint for each diagnostic, the payload `{ target }` and
      the timeout. */
  function RemotePlan(kind: Kind, target: string): (p: Plan)
    ensures p.CallSlave? && Truthy(p.payload)
    ensures p.payload.JObj? && p.payload.fields.Keys == {"target"} && p.payload.fields["target"] == JStr(target)
    ensures p.timeoutMs >= LocalPlan(kind, target).timeoutMs
    ensures p.endpoint == (if kind == Ping then "/ping" else "/mtr")
    ensures p.timeoutMs == (if kind == Ping then 30000 else 90000)
  {
    var payload := JObj(map["target" := JStr(target)]);
    match kind
    case Ping => CallSlave("/ping", payload, 30000)
    case Mtr => CallSlave("/mtr", payload, 90000)
  }

  /** `${command} ${args.join(' ')}` */
  function CommandLine(command: string, args: seq<string>): string {
    command + " " + JoinWith(args, " ")
  }

  /** The command line a failure response reports, as the handlers spell it
      out in their `catch` blocks. */
  function FailureCommand(kind: Kind, target: string): string {
    match kind
    case Ping => "ping -c 4 -W 5 " + target
    case Mtr => "mtr --report --report-cycles 10 " + target
  }

  /** The command line reported on failure is the one a local run uses. */
  lemma FailureCommandIsLocalCommandLine(kind: Kind, target: string)
    ensures LocalPlan(kind, target).RunLocally?
    ensures FailureCommand(kind, target) ==
      CommandLine(LocalPlan(kind, target).command, LocalPlan(kind, target).args)
  {
    if kind == Ping {
      PingCommandLine(target);
    } else {
      MtrCommandLine(target);
    }
  }

  lemma PingCommandLine(target: string)
    ensures CommandLine("ping", ["-c", "4", "-W", "5", target]) == "ping -c 4 -W 5 " + target
  {
    PingArgsJoined(target);
    assert "ping " + ("-c 4 -W 5 " + target) == ("ping " + "-c 4 -W 5 ") + target;
  }

  lemma MtrCommandLine(target: string)
    ensures CommandLine("mtr", ["--report", "--report-cycles", "10", target]) == "mtr --report --report-cycles 10 " + target
  {
    MtrArgsJoined(target);
    assert "mtr " + ("--report --report-cycles 10 " + target) == ("mtr " + "--report --report-cycles 10 ") + target;
  }

  lemma PingArgsJoined(target: string)
    ensures JoinWith(["-c", "4", "-W", "5", target], " ") == "-c 4 -W 5 " + target
  {
    var sep := " ";
    JoinWithSnoc(["-c"], "4", sep);
    assert ["-c", "4"] == ["-c"] + ["4"];
    var j2 := JoinWith(["-c", "4"], sep);
    assert j2 == "-c 4";
    JoinWithSnoc(["-c", "4"], "-W", sep);
    assert ["-c", "4", "-W"] == ["-c", "4"] + ["-W"];
    var j3 := JoinWith(["-c", "4", "-W"], sep);
    assert j3 == "-c 4 -W";
    JoinWithSnoc(["-c", "4", "-W"], "5", sep);
    assert ["-c", "4", "-W", "5"] == ["-c", "4", "-W"] + ["5"];
    var j4 := JoinWith(["-c", "4", "-W", "5"], sep);
    assert j4 == "-c 4 -W 5";
    JoinWithSnoc(["-c", "4", "-W", "5"], target, sep);
    assert ["-c", "4", "-W", "5", target] == ["-c", "4", "-W", "5"] + [target];
  }

  lemma MtrArgsJoined(target: string)
    ensures JoinWith(["--report", "--report-cycles", "10", target], " ") == "--report --report-cycles 10 " + target
  {
    var sep := " ";
    var front := ["--report", "--report-cycles", "10"];
    JoinWithSnoc(["--report"], "--report-cycles", sep);
    assert ["--report", "--report-cycles"] == ["--report"] + ["--report-cycles"];
    JoinWithSnoc(["--report", "--report-cycles"], "10", sep);
    assert front == ["--report", "--report-cycles"] + ["10"];
    var joined := JoinWith(front, sep);
    assert joined == "--report --report-cycles 10";
    JoinWithSnoc(front, target, sep);
    assert ["--report", "--report-cycles", "10", target] == front + [target];
  }

  /** The checks of a handler, in the order they run. */
  function Decide(kind: Kind, req: Request, nodes: seq<Node>, denylist: seq<string>): (d: Decision)
    // 1. a missing or empty field
    ensures !Present(req.target) || !Present(req.nodeId) ==> d == Reject(400, MissingParams)
    // 2. no configured node has the id
    ensures Present(req.target) && Present(req.nodeId) && (forall i :: 0 <= i < |nodes| ==> nodes[i].id != req.nodeId.value)
      ==> d == Reject(404, NoSuchNode)
    // 3. and 4. the first node with the id is offline; the target is invalid
    ensures forall i :: Present(req.target) && Present(req.nodeId) && FirstWithId(nodes, i) && nodes[i].id == req.nodeId.value ==>
      d == if nodes[i].status != Online then Reject(503, NodeOffline)
           else if !IsValidTarget(req.target.value, denylist) then Reject(400, InvalidTarget)
           else Execute(nodes[i], req.target.value,
                        if IsSlave(nodes[i]) then RemotePlan(kind, req.target.value) else LocalPlan(kind, req.target.value))
  {
    if !Present(req.target) || !Present(req.nodeId) then Reject(400, MissingParams)
    else
      var target := req.target.value;
      match FindNode(nodes, req.nodeId.value)
      case None => Reject(404, NoSuchNode)
      case Some(node) =>
        if node.status != Online then Reject(503, NodeOffline)
        else if !IsValidTarget(target, denylist) then Reject(400, InvalidTarget)
        else if IsSlave(node) then Execute(node, target, RemotePlan(kind, target))
        else Execute(node, target, LocalPlan(kind, target))
  }

  /** Runs a plan: a local command through `executeLocalCommand`, whose run
      is summarised by `run`, or a call through `sendToSlave`. */
  function RunPlan(plan: Plan, nodeId: string, reg: Registry,
                   run: (string, seq<string>, nat) -> ProcessEvent,
                   net: HttpRequest -> Transport): (r: Result<Output>)
    ensures plan.RunLocally? ==>
      var settled := Settle(run(plan.command, plan.args, plan.timeoutMs));
      && (r.Ok? <==> settled.Ok?)
      && (r.Ok? ==> r.value == LocalOutput(CommandLine(plan.command, plan.args), settled.value))
      && (r.Err? ==> r.msg == settled.msg)
    ensures plan.CallSlave? ==>
      var sent := SendToSlave(reg, nodeId, plan.endpoint, plan.payload, plan.timeoutMs, net);
      && (r.Ok? <==> sent.Ok?)
      && (r.Ok? ==> r.value == RemoteReply(sent.value))
      && (r.Err? ==> r.msg == sent.msg)
  {
    match plan
    case RunLocally(command, args, timeout) =>
      (match Settle(run(command, args, timeout))
       case Ok(text) => Ok(LocalOutput(CommandLine(command, args), text))
       case Err(m) => Err(m))
    case CallSlave(endpoint, payload, timeout) =>
      (match SendToSlave(reg, nodeId, endpoint, payload, timeout, net)
       case Ok(reply) => Ok(RemoteReply(reply))
       case Err(m) => Err(m))
  }

  /** `{ id, name, location }` of the node that ran the request. */
  function NodeSummary(n: Node): (j: Json)
    ensures j.JObj? && j.fields.Keys == {"id", "name", "location"}
    ensures j.fields["id"] == JStr(n.id) && j.fields["name"] == JStr(n.name)
    ensures j.fields["location"] == JStr(n.location)
  {
    JObj(map["id" := JStr(n.id), "name" := JStr(n.name), "location" := JStr(n.location)])
  }

  /** The response for a settled run on `node`, at time `now`. */
  function Respond(kind: Kind, target: string, nodeId: string, node: Node,
                   settled: Result<Output>, now: string): (resp: Response)
    ensures resp.status == 200 <==> settled.Ok?
    ensures resp.status == 500 <==> settled.Err?
    ensures settled.Err? ==>
      && "success" in resp.body && resp.body["success"] == JBool(false)
      && "error" in resp.body && resp.body["error"] == JStr(settled.msg)
    ensures settled.Ok? ==> "node" in resp.body && resp.body["node"] == NodeSummary(node)
    ensures settled.Err? ==> "node" !in resp.body
    ensures settled.Ok? && settled.value.LocalOutput? ==>
      && "success" in resp.body && resp.body["success"] == JBool(true)
      && "command" in resp.body && resp.body["command"] == JStr(settled.value.command)
      && "output" in resp.body && resp.body["output"] == JStr(settled.value.text)
  {
    match settled
    case Err(m) =>
      Response(500, map["success" := JBool(false), "error" := JStr(m), "command" := JStr(FailureCommand(kind, target))])
    case Ok(LocalOutput(command, text)) =>
      var result := map["success" := JBool(true), "command" := JStr(command), "output" := JStr(text),
                        "nodeId" := JStr(nodeId), "timestamp" := JStr(now)];
      Response(200, result["node" := NodeSummary(node)])
    case Ok(RemoteReply(reply)) =>
      Response(200, reply["node" := NodeSummary(node)])
  }

  function ErrorBody(error: string): Body {
    map["success" := JBool(false), "error" := JStr(error)]
  }

  /** A whole handler: checks, execution, response. */
  function Handle(kind: Kind, req: Request, st: FleetState, denylist: seq<string>,
                  run: (string, seq<string>, nat) -> ProcessEvent,
                  net: HttpRequest -> Transport, now: string): (resp: Response)
    ensures resp.status in {200, 400, 404, 500, 503}
    ensures resp.status in {400, 404, 503} <==> Decide(kind, req, st.nodes, denylist).Reject?
    ensures resp.status != 200 ==> "success" in resp.body && resp.body["success"] == JBool(false)
  {
    match Decide(kind, req, st.nodes, denylist)
    case Reject(status, error) => Response(status, ErrorBody(error))
    case Execute(node, target, plan) =>
      Respond(kind, target, req.nodeId.value, node, RunPlan(plan, req.nodeId.value, st.registry, run, net), now)
  }

  // ---------------------------------------------------------------------
  // Properties of the handlers.

  /** A rejected request never runs anything: the response is the same
      whatever the process runner and the transport would have done, and
      its status is 400, 404 or 503. */
  lemma RejectionRunsNothing(kind: Kind, req: Request, st: FleetState, denylist: seq<string>,
                             run1: (string, seq<string>, nat) -> ProcessEvent, run2: (string, seq<string>, nat) -> ProcessEvent,
                             net1: HttpRequest -> Transport, net2: HttpRequest -> Transport, now: string)
    requires Decide(kind, req, st.nodes, denylist).Reject?
    ensures Handle(kind, req, st, denylist, run1, net1, now) == Handle(kind, req, st, denylist, run2, net2, now)
    ensures Handle(kind, req, st, denylist, run1, net1, now).status in {400, 404, 503}
    ensures Handle(kind, req, st, denylist, run1, net1, now).body["success"] == JBool(false)
    ensures var d := Decide(kind, req, st.nodes, denylist);
      Handle(kind, req, st, denylist, run1, net1, now) == Response(d.status, ErrorBody(d.error))
  {
  }

  /** A request is executed only on the first node with its id, only when
      that node is online and the target is valid, and it goes to the slave
      exactly when the node's type is "slave". */
  lemma ExecutionGate(kind: Kind, req: Request, nodes: seq<Node>, denylist: seq<string>)
    ensures var d := Decide(kind, req, nodes, denylist);
      d.Execute? ==>
      && Present(req.target) && Present(req.nodeId)
      && d.target == req.target.value
      && (exists i :: FirstWithId(nodes, i) && nodes[i] == d.node && d.node.id == req.nodeId.value)
      && d.node.status == Online
      && IsValidTarget(d.target, denylist)
      && (d.plan.CallSlave? <==> IsSlave(d.node))
  {
    var d := Decide(kind, req, nodes, denylist);
    if d.Execute? {
      var i := IndexOf(NodeIds(nodes), req.nodeId.value).value;
      assert FirstWithId(nodes, i);
    }
  }

  /** Once a request is executed, the status says how the run settled: 200
      when it succeeded, 500 when it failed. A failure reports the error and
      the local command line, whichever venue ran the request. */
  lemma ExecutedOutcome(kind: Kind, req: Request, st: FleetState, denylist: seq<string>,
                        run: (string, seq<string>, nat) -> ProcessEvent,
                        net: HttpRequest -> Transport, now: string)
    ensures var d := Decide(kind, req, st.nodes, denylist);
      d.Execute? ==>
      var settled := RunPlan(d.plan, req.nodeId.value, st.registry, run, net);
      var resp := Handle(kind, req, st, denylist, run, net, now);
      var local := LocalPlan(kind, d.target);
      && (resp.status == 200 <==> settled.Ok?)
      && (resp.status == 500 <==> settled.Err?)
      && (settled.Err? ==> resp.body == map["success" := JBool(false), "error" := JStr(settled.msg),
                                            "command" := JStr(CommandLine(local.command, local.args))])
      && (settled.Ok? ==> "node" in resp.body && resp.body["node"] == NodeSummary(d.node))
  {
    var d := Decide(kind, req, st.nodes, denylist);
    if d.Execute? {
      FailureCommandIsLocalCommandLine(kind, d.target);
    }
  }

  /** A request run on the master itself: it succeeds exactly when the
      command exits with code 0, and then the body carries the command line,
      stdout, the node id, the time and the node; otherwise the body carries
      the settled error. */
  lemma LocalRunResponse(kind: Kind, req: Request, st: FleetState, denylist: seq<string>,
                         run: (string, seq<string>, nat) -> ProcessEvent,
                         net: HttpRequest -> Transport, now: string)
    ensures var d := Decide(kind, req, st.nodes, denylist);
      d.Execute? && !IsSlave(d.node) ==>
      var plan := LocalPlan(kind, d.target);
      var e := run(plan.command, plan.args, plan.timeoutMs);
      var resp := Handle(kind, req, st, denylist, run, net, now);
      && (resp.status == 200 <==> e.Closed? && e.code == Some(0))
      && (resp.status == 200 ==> resp.body == map[
            "success" := JBool(true), "command" := JStr(FailureCommand(kind, d.target)),
            "output" := JStr(e.stdout), "nodeId" := JStr(d.node.id), "timestamp" := JStr(now),
            "node" := NodeSummary(d.node)])
      && (resp.status != 200 ==> resp.status == 500 && resp.body["error"] == JStr(Settle(e).msg))
      && (e.DeadlineFired? ==> resp.body["error"] == JStr(TimeoutMessage))
  {
    var d := Decide(kind, req, st.nodes, denylist);
    if d.Execute? {
      FailureCommandIsLocalCommandLine(kind, d.target);
    }
  }

  /** A request forwarded to a slave: a slave the manager does not track
      fails before anything is sent; otherwise one POST with `{ target }`
      goes to the slave's URL with its API key, and the reply is passed on
      with the node added, or the transport error is reported. */
  lemma RemoteRunResponse(kind: Kind, req: Request, st: FleetState, denylist: seq<string>,
                          run: (string, seq<string>, nat) -> ProcessEvent,
                          net: HttpRequest -> Transport, now: string)
    requires WellFormed(st)
    requires Decide(kind, req, st.nodes, denylist).Execute?
    requires IsSlave(Decide(kind, req, st.nodes, denylist).node)
    ensures var d := Decide(kind, req, st.nodes, denylist);
      var id := req.nodeId.value;
      var plan := RemotePlan(kind, d.target);
      var resp := Handle(kind, req, st, denylist, run, net, now);
      && (Lookup(st.registry, id).None? ==>
            resp.status == 500 && resp.body["error"] == JStr(NoSuchNodePrefix + id))
      && (Lookup(st.registry, id).Some? ==>
            var cfg := Lookup(st.registry, id).value.node.slaveConfig.value;
            var sent := HttpRequest(Post, Url(cfg, plan.endpoint), Headers(cfg),
                                    Some(JObj(map["target" := JStr(d.target)])), plan.timeoutMs);
            && ShapeRequest(st.registry, id, plan.endpoint, plan.payload, plan.timeoutMs) == Ok(sent)
            && (net(sent).Delivered? ==> resp == Response(200, net(sent).body["node" := NodeSummary(d.node)]))
            && (net(sent).Failed? ==>
                  resp.status == 500 && resp.body["error"] == JStr(CommFailurePrefix + net(sent).message)))
  {
    var id := req.nodeId.value;
    var k := IndexOf(Ids(st.registry), id);
    if k.Some? {
      assert Tracks(st.registry[k.value].node);
    }
  }

  /** A reply passed on from a slave keeps every field but `node`, which
      names the node the master picked. */
  lemma ReplyFieldsKept(kind: Kind, target: string, nodeId: string, node: Node, reply: Body, now: string)
    ensures var resp := Respond(kind, target, nodeId, node, Ok(RemoteReply(reply)), now);
      && resp.status == 200
      && resp.body.Keys == reply.Keys + {"node"}
      && (forall k :: k in reply && k != "node" ==> resp.body[k] == reply[k])
      && resp.body["node"] == NodeSummary(node)
  {
  }

  /** The health probe gates the handlers: right after a probe of a tracked
      node, a request naming it is refused with 503 when the probe failed,
      and gets past the status check when it succeeded. */
  lemma ProbeGatesRequests(kind: Kind, req: Request, st: FleetState, denylist: seq<string>,
                           id: string, net: HttpRequest -> Transport, now: string)
    requires Distinct(Ids(st.registry)) && id in Ids(st.registry)
    requires Present(req.target) && Present(req.nodeId) && req.nodeId.value == id && id in NodeIds(st.nodes)
    ensures var after := CheckSlaveHealth(st, id, net, now);
      var d := Decide(kind, req, after.0.nodes, denylist);
      && (!after.1 ==> d == Reject(503, NodeOffline))
      && (after.1 ==> d != Reject(503, NodeOffline))
  {
    var after := CheckSlaveHealth(st, id, net, now);
    var j := IndexOf(NodeIds(st.nodes), id).value;
    assert FirstWithId(st.nodes, j);
    assert FirstWithId(after.0.nodes, j) && after.0.nodes[j].id == id by {
      assert forall m :: 0 <= m < |st.nodes| ==> after.0.nodes[m].id == NodeIds(after.0.nodes)[m] == NodeIds(st.nodes)[m];
    }
    assert after.0.nodes[j].status == StatusFor(after.1);
  }

  /** "8.8.8.8" is a valid target when nothing is denied. */
  lemma GoogleDnsValid()
    ensures IsValidTarget("8.8.8.8", [])
  {
    assert DotFree("8");
    FourPieces("8", "8", "8", "8");
    assert "8" + "." + "8" + "." + "8" + "." + "8" == "8.8.8.8";
    assert IsLabel("8");
    assert HostnameMatch("8.8.8.8");
    Utf16LengthBounds("8.8.8.8");
  }

  /** A ping of 8.8.8.8 on the master's own node, whose command exits 0. */
  lemma LocalPingExample(run: (string, seq<string>, nat) -> ProcessEvent,
                         net: HttpRequest -> Transport, now: string)
    requires run("ping", ["-c", "4", "-W", "5", "8.8.8.8"], 20000) == Closed(Some(0), "4 packets", "")
    ensures var node := Node("tw", "Taipei", "TW", Online, "local", None);
      Handle(Ping, Request(Some("8.8.8.8"), Some("tw")), FleetState([node], []), [], run, net, now)
      == Response(200, map["success" := JBool(true), "command" := JStr("ping -c 4 -W 5 8.8.8.8"),
                           "output" := JStr("4 packets"), "nodeId" := JStr("tw"), "timestamp" := JStr(now),
                           "node" := NodeSummary(node)])
  {
    var node := Node("tw", "Taipei", "TW", Online, "local", None);
    var req := Request(Some("8.8.8.8"), Some("tw"));
    var plan := LocalPlan(Ping, "8.8.8.8");
    GoogleDnsValid();
    assert FirstWithId([node], 0);
    assert Decide(Ping, req, [node], []) == Execute(node, "8.8.8.8", plan);
    PingCommandLine("8.8.8.8");
    assert CommandLine(plan.command, plan.args) == "ping -c 4 -W 5 8.8.8.8";
    assert Settle(run(plan.command, plan.args, plan.timeoutMs)) == Ok("4 packets");
  }

  /** A target with an underscore is refused before anything runs. */
  lemma UnderscoreRejected(run: (string, seq<string>, nat) -> ProcessEvent,
                           net: HttpRequest -> Transport, now: string)
    ensures var node := Node("tw", "Taipei", "TW", Online, "local", None);
      Handle(Ping, Request(Some("bad_target"), Some("tw")), FleetState([node], []), [], run, net, now)
      == Response(400, ErrorBody(InvalidTarget))
  {
    var node := Node("tw", "Taipei", "TW", Online, "local", None);
    var t := "bad_target";
    assert DotFree(t);
    SplitDotFree(t);
    assert !IsLabelChar(t[3]);
    assert !IsLabel(Split(t)[0]);
    assert !IsValidTarget(t, []);
    assert FirstWithId([node], 0);
  }
}

=== FILE: fleet.dfy ===
/** The configured nodes (`config.nodes`) and the slave registry that
    `SlaveNodeManager` keeps in `this.slaveNodes` (master-server.js:42-61).

    The registry is a JavaScript `Map` from node id to a copy of the node
    extended with `lastHealthCheck` and `isHealthy`. A `Map` remembers
    insertion order and `set` on an existing key replaces the value in place,
    so it is modelled as a sequence of records with distinct ids. */
module Fleet {
  import opened Values

  /** `slaveConfig` of a remote node. */
  datatype SlaveConfig = SlaveConfig(host: string, port: nat, apiKey: string)

  /** A configured node: the fields the core reads. `nodeType` is the `type`
      field; a node without one behaves like any type other than "slave". */
  datatype Node = Node(
    id: string,
    name: string,
    location: string,
    status: string,
    nodeType: string,
    slaveConfig: Option<SlaveConfig>)

  const SlaveType: string := "slave"
  const Online: string := "online"
  const Offline: string := "offline"

  predicate IsSlave(n: Node) {
    n.nodeType == SlaveType
  }

  /** `node.type === 'slave' && node.slaveConfig`: the nodes the manager tracks. */
  predicate Tracks(n: Node) {
    IsSlave(n) && n.slaveConfig.Some?
  }

  function NodeIds(nodes: seq<Node>): (ids: seq<string>)
    ensures |ids| == |nodes|
    ensures forall i :: 0 <= i < |nodes| ==> ids[i] == nodes[i].id
  {
    seq(|nodes|, i requires 0 <= i < |nodes| => nodes[i].id)
  }

  /** `nodes[i]` is the first node carrying its id. */
  predicate FirstWithId(nodes: seq<Node>, i: int) {
    0 <= i < |nodes| && forall j :: 0 <= j < i ==> nodes[j].id != nodes[i].id
  }

  /** `config.nodes.find(n => n.id === id)`: the first node carrying `id`. */
  function FindNode(nodes: seq<Node>, id: string): (r: Option<Node>)
    ensures r.None? <==> forall i :: 0 <= i < |nodes| ==> nodes[i].id != id
    ensures r.Some? ==> r.value.id == id && exists i :: FirstWithId(nodes, i) && nodes[i] == r.value
  {
    match IndexOf(NodeIds(nodes), id)
    case None => None
    case Some(i) => Some(nodes[i])
  }

  /** One entry of `slaveNodes`: the node copy (`{...node}`) and its health. */
  datatype Tracked = Tracked(node: Node, lastHealthCheck: Option<string>, isHealthy: bool)

  /** `slaveNodes`, in insertion order; the key of an entry is `node.id`. */
  type Registry = seq<Tracked>

  function Ids(reg: Registry): (ids: seq<string>)
    ensures |ids| == |reg|
    ensures forall k :: 0 <= k < |reg| ==> ids[k] == reg[k].node.id
  {
    seq(|reg|, k requires 0 <= k < |reg| => reg[k].node.id)
  }

  /** The node copies, without their health. */
  function Copies(reg: Registry): (copies: seq<Node>)
    ensures |copies| == |reg|
    ensures forall k :: 0 <= k < |reg| ==> copies[k] == reg[k].node
  {
    seq(|reg|, k requires 0 <= k < |reg| => reg[k].node)
  }

  /** `slaveNodes.get(id)` */
  function Lookup(reg: Registry, id: string): (r: Option<Tracked>)
    ensures r.None? <==> id !in Ids(reg)
    ensures r.Some? ==> r.value in reg && r.value.node.id == id
    ensures Distinct(Ids(reg)) ==>
      forall k :: 0 <= k < |reg| && reg[k].node.id == id ==> r == Some(reg[k])
  {
    match IndexOf(Ids(reg), id)
    case None => None
    case Some(k) => Some(reg[k])
  }

  /** `slaveNodes.set(t.node.id, t)`: replaces the entry with that key where
      it stands, or appends a new one. */
  function Put(reg: Registry, t: Tracked): (r: Registry)
    ensures Distinct(Ids(reg)) ==> Distinct(Ids(r))
    ensures Lookup(r, t.node.id) == Some(t)
    ensures forall id :: id != t.node.id ==> Lookup(r, id) == Lookup(reg, id)
    ensures forall id :: id in Ids(r) <==> id in Ids(reg) || id == t.node.id
    ensures |reg| <= |r| && forall k :: 0 <= k < |reg| ==> Ids(r)[k] == Ids(reg)[k]
    ensures forall k :: 0 <= k < |r| ==> r[k] == t || (k < |reg| && r[k] == reg[k])
  {
    match IndexOf(Ids(reg), t.node.id)
    case Some(k) =>
      var r := reg[k := t];
      assert Ids(r) == Ids(reg);
      r
    case None =>
      var r := reg + [t];
      assert Ids(r) == Ids(reg) + [t.node.id];
      assert forall id :: id != t.node.id ==> IndexOf(Ids(r), id) == IndexOf(Ids(reg), id) by {
        forall id | id != t.node.id
          ensures IndexOf(Ids(r), id) == IndexOf(Ids(reg), id)
        {
          IndexOfExtend(Ids(reg), t.node.id, id);
        }
      }
      r
  }

  /** Appending an element other than `x` does not move the first `x`. */
  lemma IndexOfExtend(xs: seq<string>, y: string, x: string)
    requires x != y
    ensures IndexOf(xs + [y], x) == IndexOf(xs, x)
  {
    var a, b := IndexOf(xs + [y], x), IndexOf(xs, x);
    if a.Some? {
      assert (xs + [y])[a.value] == xs[a.value];
    }
    if b.Some? {
      assert (xs + [y])[b.value] == xs[b.value];
    }
  }

  /** The record a node gets when it is loaded: never checked, not healthy. */
  function Fresh(n: Node): Tracked {
    Tracked(n, None, false)
  }

  /** `loadSlaveNodes` over `config.nodes`. */
  function LoadSlaveNodes(nodes: seq<Node>): (reg: Registry)
    ensures Distinct(Ids(reg))
    decreases |nodes|
  {
    if |nodes| == 0 then []
    else
      var reg := LoadSlaveNodes(nodes[..|nodes| - 1]);
      var n := nodes[|nodes| - 1];
      if Tracks(n) then Put(reg, Fresh(n)) else reg
  }

  /** Exactly the nodes with type "slave" and a `slaveConfig` are tracked. */
  lemma {:induction false} LoadTracksSlaves(nodes: seq<Node>, id: string)
    ensures id in Ids(LoadSlaveNodes(nodes)) <==>
      exists i :: 0 <= i < |nodes| && Tracks(nodes[i]) && nodes[i].id == id
    decreases |nodes|
  {
    if |nodes| > 0 {
      var front := nodes[..|nodes| - 1];
      LoadTracksSlaves(front, id);
      if i :| 0 <= i < |front| && Tracks(front[i]) && front[i].id == id {
        assert nodes[i] == front[i];
      }
      if i :| 0 <= i < |nodes| && Tracks(nodes[i]) && nodes[i].id == id {
        if i < |front| {
          assert front[i] == nodes[i];
        }
      }
    }
  }

  /** Every record is as loaded: never checked, not healthy, tracked. */
  predicate AllFresh(reg: Registry) {
    forall k :: 0 <= k < |reg| ==> reg[k] == Fresh(reg[k].node) && Tracks(reg[k].node)
  }

  /** Every loaded record is fresh and holds a tracked node. */
  lemma {:induction false} LoadFresh(nodes: seq<Node>)
    ensures AllFresh(LoadSlaveNodes(nodes))
    decreases |nodes|
  {
    if |nodes| > 0 {
      var front := nodes[..|nodes| - 1];
      LoadFresh(front);
      var reg := LoadSlaveNodes(front);
      var n := nodes[|nodes| - 1];
      if Tracks(n) {
        var r := Put(reg, Fresh(n));
        assert LoadSlaveNodes(nodes) == r;
        forall k | 0 <= k < |r| ensures r[k] == Fresh(r[k].node) && Tracks(r[k].node) {
          if r[k] != Fresh(n) {
            assert r[k] == reg[k];
            assert reg[k] == Fresh(reg[k].node) && Tracks(reg[k].node);
          }
        }
      }
    }
  }

  /** When one id is configured several times, the last tracked node with
      that id is the one the registry keeps (`Map.set` overwrites). */
  lemma {:induction false} LoadLastWins(nodes: seq<Node>, i: nat)
    requires i < |nodes| && Tracks(nodes[i])
    requires forall j :: i < j < |nodes| && Tracks(nodes[j]) ==> nodes[j].id != nodes[i].id
    ensures Lookup(LoadSlaveNodes(nodes), nodes[i].id) == Some(Fresh(nodes[i]))
    decreases |nodes|
  {
    var front := nodes[..|nodes| - 1];
    if i < |nodes| - 1 {
      LoadLastWins(front, i);
    }
  }
}

=== FILE: health.dfy ===
/** The health probes of `SlaveNodeManager`: `checkSlaveHealth` and one
    round of `performHealthCheck` (master-server.js:91-148).

    The round starts one probe per tracked id and waits for all of them with
    `Promise.allSettled`. Each probe writes only its own registry record and
    the status of the first configured node with its id, so the round is
    modelled as a sequential fold, and `ProbeOrderIrrelevant` shows the
    order of the fold cannot change the outcome. */
module Health {
  import opened Values
  import opened Fleet
  import opened SlaveClient

  /** What the manager and the handlers share: `config.nodes`, whose
      `status` the probes write, and the registry `slaveNodes`. */
  datatype FleetState = FleetState(nodes: seq<Node>, registry: Registry)

  /** The state `loadSlaveNodes` sets up and the probes keep: distinct
      keys, and every record a tracked slave with its `slaveConfig`. */
  predicate WellFormed(st: FleetState) {
    && Distinct(Ids(st.registry))
    && forall k :: 0 <= k < |st.registry| ==> Tracks(st.registry[k].node)
  }

  /** The state right after loading is well formed. */
  lemma LoadedWellFormed(nodes: seq<Node>)
    ensures WellFormed(FleetState(nodes, LoadSlaveNodes(nodes)))
  {
    LoadFresh(nodes);
  }

  /** Records keep their node copies across probes, so probing keeps the
      state well formed. */
  lemma SameCopiesWellFormed(st: FleetState, st2: FleetState)
    requires WellFormed(st) && Copies(st2.registry) == Copies(st.registry)
    ensures WellFormed(st2)
  {
    assert Ids(st2.registry) == Ids(st.registry) by {
      assert forall k :: 0 <= k < |st2.registry| ==> Ids(st2.registry)[k] == Copies(st2.registry)[k].id;
      assert forall k :: 0 <= k < |st.registry| ==> Ids(st.registry)[k] == Copies(st.registry)[k].id;
    }
    assert forall k :: 0 <= k < |st2.registry| ==> st2.registry[k].node == Copies(st.registry)[k];
  }

  const HealthEndpoint: string := "/health"
  const HealthTimeout: nat := 5000

  /** Whether the probe of `id` finds the node healthy: the `/health` reply
      has a truthy `success` field. A thrown call (unknown id, transport
      error) counts as unhealthy. */
  function ProbeHealthy(reg: Registry, id: string, net: HttpRequest -> Transport): (healthy: bool)
    ensures healthy ==> id in Ids(reg)
    ensures healthy ==>
      var sent := ShapeRequest(reg, id, HealthEndpoint, JNull, HealthTimeout);
      && sent.Ok? && sent.value.verb == Get && sent.value.body == None
      && sent.value.timeoutMs == HealthTimeout
      && net(sent.value).Delivered? && "success" in net(sent.value).body
      && Truthy(net(sent.value).body["success"])
    ensures
      var sent := ShapeRequest(reg, id, HealthEndpoint, JNull, HealthTimeout);
      (&& sent.Ok? && net(sent.value).Delivered? && "success" in net(sent.value).body
       && Truthy(net(sent.value).body["success"])) ==> healthy
  {
    match SendToSlave(reg, id, HealthEndpoint, JNull, HealthTimeout, net)
    case Ok(body) => "success" in body && Truthy(body["success"])
    case Err(_) => false
  }

  /** A probe never depends on the health already recorded. */
  lemma ProbeDependsOnCopies(reg1: Registry, reg2: Registry, id: string, net: HttpRequest -> Transport)
    requires Copies(reg1) == Copies(reg2)
    ensures ProbeHealthy(reg1, id, net) == ProbeHealthy(reg2, id, net)
  {
    ShapeDependsOnCopies(reg1, reg2, id, HealthEndpoint, JNull, HealthTimeout);
  }

  /** The record after a probe taken at time `now`. */
  function Probed(t: Tracked, healthy: bool, now: string): Tracked {
    t.(lastHealthCheck := Some(now), isHealthy := healthy)
  }

  function StatusFor(healthy: bool): string {
    if healthy then Online else Offline
  }

  /** `checkSlaveHealth(id)` with the current time `now`: the new state and
      the value the probe resolves with. */
  function CheckSlaveHealth(st: FleetState, id: string, net: HttpRequest -> Transport, now: string): (r: (FleetState, bool))
    requires Distinct(Ids(st.registry))
    ensures r.1 == ProbeHealthy(st.registry, id, net)
    ensures id !in Ids(st.registry) ==> r.0 == st
    ensures Copies(r.0.registry) == Copies(st.registry)
    ensures forall k :: 0 <= k < |st.registry| ==>
      r.0.registry[k] == if Ids(st.registry)[k] == id then Probed(st.registry[k], r.1, now) else st.registry[k]
    ensures NodeIds(r.0.nodes) == NodeIds(st.nodes)
    ensures forall i :: 0 <= i < |st.nodes| ==>
      r.0.nodes[i] ==
        if id in Ids(st.registry) && st.nodes[i].id == id && FirstWithId(st.nodes, i)
        then st.nodes[i].(status := StatusFor(r.1))
        else st.nodes[i]
  {
    var healthy := ProbeHealthy(st.registry, id, net);
    match IndexOf(Ids(st.registry), id)
    case None => (st, false)
    case Some(k) =>
      var registry := st.registry[k := Probed(st.registry[k], healthy, now)];
      assert Copies(registry) == Copies(st.registry);
      var nodes :=
        match IndexOf(NodeIds(st.nodes), id)
        case None => st.nodes
        case Some(i) => st.nodes[i := st.nodes[i].(status := StatusFor(healthy))];
      assert NodeIds(nodes) == NodeIds(st.nodes);
      (FleetState(nodes, registry), healthy)
  }

  /** The probes of a round, one id after another. */
  function ProbeEach(st: FleetState, ids: seq<string>, net: HttpRequest -> Transport, now: string): (r: FleetState)
    requires Distinct(Ids(st.registry))
    ensures Copies(r.registry) == Copies(st.registry)
    ensures NodeIds(r.nodes) == NodeIds(st.nodes)
    decreases |ids|
  {
    if |ids| == 0 then st
    else
      var next := CheckSlaveHealth(st, ids[0], net, now).0;
      assert Ids(next.registry) == Ids(st.registry) by {
        assert forall k :: 0 <= k < |next.registry| ==> Ids(next.registry)[k] == Copies(next.registry)[k].id;
        assert forall k :: 0 <= k < |st.registry| ==> Ids(st.registry)[k] == Copies(st.registry)[k].id;
      }
      ProbeEach(next, ids[1..], net, now)
  }

  /** `Array.from(slaveNodes.values()).filter(node => node.isHealthy).length` */
  function HealthyCount(reg: Registry): nat
    decreases |reg|
  {
    if |reg| == 0 then 0
    else HealthyCount(reg[..|reg| - 1]) + (if reg[|reg| - 1].isHealthy then 1 else 0)
  }

  /** One round of `performHealthCheck`: every tracked id is probed; the
      round reports how many records are healthy afterwards, which is the
      number of tracked nodes whose probe succeeded. */
  function PerformHealthCheck(st: FleetState, net: HttpRequest -> Transport, now: string): (r: (FleetState, nat))
    requires Distinct(Ids(st.registry))
    ensures r.1 == |set k | 0 <= k < |st.registry| && ProbeHealthy(st.registry, Ids(st.registry)[k], net)|
    ensures |st.registry| - r.1 ==
      |set k | 0 <= k < |st.registry| && !ProbeHealthy(st.registry, Ids(st.registry)[k], net)|
  {
    var after := ProbeEach(st, Ids(st.registry), net, now);
    RoundVerdicts(st, net, now);
    HealthyCountIsSize(after.registry);
    (after, HealthyCount(after.registry))
  }

  /** After a round, the healthy records are exactly those whose probe
      succeeded. */
  lemma RoundVerdicts(st: FleetState, net: HttpRequest -> Transport, now: string)
    requires Distinct(Ids(st.registry))
    ensures var after := ProbeEach(st, Ids(st.registry), net, now);
      && (set k | 0 <= k < |after.registry| && after.registry[k].isHealthy)
         == (set k | 0 <= k < |st.registry| && ProbeHealthy(st.registry, Ids(st.registry)[k], net))
      && (set k | 0 <= k < |after.registry| && !after.registry[k].isHealthy)
         == (set k | 0 <= k < |st.registry| && !ProbeHealthy(st.registry, Ids(st.registry)[k], net))
  {
    ProbeEachEffect(st, Ids(st.registry), net, now);
  }

  // ---------------------------------------------------------------------
  // What a round does.

  /** The fold probes each listed id exactly once, whatever the others do:
      every listed tracked record gets its own probe's verdict and timestamp,
      the first configured node with a listed tracked id gets the matching
      status, and nothing else changes. */
  lemma {:induction false} ProbeEachEffect(st: FleetState, ids: seq<string>, net: HttpRequest -> Transport, now: string)
    requires Distinct(Ids(st.registry)) && Distinct(ids)
    ensures var r := ProbeEach(st, ids, net, now);
      && (forall k :: 0 <= k < |st.registry| ==>
            r.registry[k] ==
              if Ids(st.registry)[k] in ids
              then Probed(st.registry[k], ProbeHealthy(st.registry, Ids(st.registry)[k], net), now)
              else st.registry[k])
      && (forall i :: 0 <= i < |st.nodes| ==>
            r.nodes[i] ==
              if FirstWithId(st.nodes, i) && st.nodes[i].id in ids && st.nodes[i].id in Ids(st.registry)
              then st.nodes[i].(status := StatusFor(ProbeHealthy(st.registry, st.nodes[i].id, net)))
              else st.nodes[i])
    decreases |ids|
  {
    if |ids| > 0 {
      var step := CheckSlaveHealth(st, ids[0], net, now);
      var next := step.0;
      var rest := ids[1..];
      assert Ids(next.registry) == Ids(st.registry) by {
        assert forall k :: 0 <= k < |next.registry| ==> Ids(next.registry)[k] == Copies(next.registry)[k].id;
        assert forall k :: 0 <= k < |st.registry| ==> Ids(st.registry)[k] == Copies(st.registry)[k].id;
      }
      assert Distinct(rest);
      assert ids[0] !in rest;
      ProbeEachEffect(next, rest, net, now);
      var r := ProbeEach(next, rest, net, now);
      assert r == ProbeEach(st, ids, net, now);
      forall x {
        ProbeDependsOnCopies(next.registry, st.registry, x, net);
      }
      forall k | 0 <= k < |st.registry|
        ensures r.registry[k] ==
          if Ids(st.registry)[k] in ids
          then Probed(st.registry[k], ProbeHealthy(st.registry, Ids(st.registry)[k], net), now)
          else st.registry[k]
      {
        var x := Ids(st.registry)[k];
        assert x in ids <==> x == ids[0] || x in rest;
      }
      assert forall i :: 0 <= i < |st.nodes| ==> next.nodes[i].id == st.nodes[i].id by {
        forall i | 0 <= i < |st.nodes| ensures next.nodes[i].id == st.nodes[i].id {
          assert NodeIds(next.nodes)[i] == NodeIds(st.nodes)[i];
        }
      }
      forall i | 0 <= i < |st.nodes|
        ensures r.nodes[i] ==
          if FirstWithId(st.nodes, i) && st.nodes[i].id in ids && st.nodes[i].id in Ids(st.registry)
          then st.nodes[i].(status := StatusFor(ProbeHealthy(st.registry, st.nodes[i].id, net)))
          else st.nodes[i]
      {
        var x := st.nodes[i].id;
        assert FirstWithId(next.nodes, i) <==> FirstWithId(st.nodes, i);
        assert x in ids <==> x == ids[0] || x in rest;
      }
    }
  }

  /** A full round probes every tracked id. */
  lemma HealthCycleEffect(st: FleetState, net: HttpRequest -> Transport, now: string)
    requires Distinct(Ids(st.registry))
    ensures var r := PerformHealthCheck(st, net, now).0;
      && |r.registry| == |st.registry|
      && (forall k :: 0 <= k < |st.registry| ==>
            r.registry[k] == Probed(st.registry[k], ProbeHealthy(st.registry, Ids(st.registry)[k], net), now))
      && |r.nodes| == |st.nodes|
      && (forall i :: 0 <= i < |st.nodes| ==>
            r.nodes[i] ==
              if FirstWithId(st.nodes, i) && st.nodes[i].id in Ids(st.registry)
              then st.nodes[i].(status := StatusFor(ProbeHealthy(st.registry, st.nodes[i].id, net)))
              else st.nodes[i])
  {
    ProbeEachEffect(st, Ids(st.registry), net, now);
  }

  /** The order in which the probes land does not matter: any two orders
      of the same tracked ids give the same state. */
  lemma ProbeOrderIrrelevant(st: FleetState, ids1: seq<string>, ids2: seq<string>, net: HttpRequest -> Transport, now: string)
    requires Distinct(Ids(st.registry)) && Distinct(ids1) && Distinct(ids2)
    requires forall x :: x in ids1 <==> x in ids2
    ensures ProbeEach(st, ids1, net, now) == ProbeEach(st, ids2, net, now)
  {
    var r1, r2 := ProbeEach(st, ids1, net, now), ProbeEach(st, ids2, net, now);
    ProbeEachEffect(st, ids1, net, now);
    ProbeEachEffect(st, ids2, net, now);
    assert |r1.registry| == |st.registry| == |r2.registry|;
    assert r1.registry == r2.registry;
    assert |r1.nodes| == |NodeIds(st.nodes)| == |r2.nodes|;
    assert r1.nodes == r2.nodes;
  }

  /** The healthy count is the number of healthy records. */
  lemma {:induction false} HealthyCountIsSize(reg: Registry)
    ensures HealthyCount(reg) == |set k | 0 <= k < |reg| && reg[k].isHealthy|
    ensures |reg| - HealthyCount(reg) == |set k | 0 <= k < |reg| && !reg[k].isHealthy|
    decreases |reg|
  {
    if |reg| > 0 {
      var n := |reg| - 1;
      var front := reg[..n];
      HealthyCountIsSize(front);
      var good := set k | 0 <= k < |front| && front[k].isHealthy;
      var bad := set k | 0 <= k < |front| && !front[k].isHealthy;
      assert n !in good && n !in bad;
      if reg[n].isHealthy {
        assert (set k | 0 <= k < |reg| && reg[k].isHealthy) == good + {n};
        assert (set k | 0 <= k < |reg| && !reg[k].isHealthy) == bad;
      } else {
        assert (set k | 0 <= k < |reg| && reg[k].isHealthy) == good;
        assert (set k | 0 <= k < |reg| && !reg[k].isHealthy) == bad + {n};
      }
    }
  }

  /** A probe that fails (or replies without a truthy `success`) leaves its
      node unhealthy and its status offline; a probe of an unknown id
      changes nothing. */
  lemma FailedProbeTakesNodeOffline(st: FleetState, id: string, net: HttpRequest -> Transport, now: string, i: nat)
    requires Distinct(Ids(st.registry))
    requires id in Ids(st.registry) && !ProbeHealthy(st.registry, id, net)
    requires FirstWithId(st.nodes, i) && st.nodes[i].id == id
    ensures var r := CheckSlaveHealth(st, id, net, now).0;
      r.nodes[i].status == Offline && Lookup(r.registry, id).value.isHealthy == false
      && Lookup(r.registry, id).value.lastHealthCheck == Some(now)
  {
    var r := CheckSlaveHealth(st, id, net, now).0;
    var k :| 0 <= k < |st.registry| && Ids(st.registry)[k] == id;
    IndexOfDistinct(Ids(st.registry), k);
    assert Ids(r.registry)[k] == Copies(r.registry)[k].id == id;
    assert forall j :: 0 <= j < |r.registry| ==> Ids(r.registry)[j] == Copies(r.registry)[j].id == Ids(st.registry)[j];
    IndexOfDistinct(Ids(r.registry), k);
  }

  /** A probe and a whole round keep the state well formed. */
  lemma ProbesKeepWellFormed(st: FleetState, id: string, net: HttpRequest -> Transport, now: string)
    requires WellFormed(st)
    ensures WellFormed(CheckSlaveHealth(st, id, net, now).0)
    ensures WellFormed(PerformHealthCheck(st, net, now).0)
  {
    SameCopiesWellFormed(st, CheckSlaveHealth(st, id, net, now).0);
    SameCopiesWellFormed(st, PerformHealthCheck(st, net, now).0);
  }
}

=== FILE: local_exec.dfy ===
/** How `executeLocalCommand` (master-server.js:169-206) settles its promise.
    Spawning the process, reading its streams and racing the timer are not
    modelled; the run is summarised by the first event that settles it. */
module LocalExec {
  import opened Values
  import opened Decimal

  /** The event that settles a local run. Only the first one counts: a
      promise settles once. */
  datatype ProcessEvent =
      /** The `close` event: the exit code (`null` when a signal ended the
          process) and everything read from stdout and stderr. */
    | Closed(code: Option<int>, stdout: string, stderr: string)
      /** The `error` event: the process could not be spawned. */
    | SpawnFailed(message: string)
      /** The timer fired while the process was still running. */
    | DeadlineFired

  /** Message of the rejection when the timer fires. */
  const TimeoutMessage: string := "命令執行超時"
  /** Message of a non-zero exit with nothing on stderr, before the code. */
  const ExitPrefix: string := "命令執行失敗，退出代碼: "

  /** `${code}` for an exit code that may be `null`: the word `null`, or
      decimal text without leading zeros that reads back as the code. */
  function CodeText(code: Option<int>): (r: string)
    ensures code.None? <==> r == "null"
    ensures code.Some? ==> (code.value < 0 <==> |r| > 0 && r[0] == '-')
    ensures code.Some? ==>
      var digits := if code.value < 0 then r[1..] else r;
      |digits| >= 1 && AllDigits(digits) && (|digits| > 1 ==> digits[0] != '0')
    ensures code.Some? ==> ParseInt(r) == Some(code.value)
  {
    match code
    case None => "null"
    case Some(n) => IntToString(n)
  }

  /** Reads the exit code back out of a generic exit message. */
  function ExitCodeOf(msg: string): Option<Option<int>> {
    if ExitPrefix <= msg then
      var rest := msg[|ExitPrefix|..];
      if rest == "null" then Some(None)
      else match ParseInt(rest)
        case Some(n) => Some(Some(n))
        case None => None
    else None
  }

  /** The generic message names the code: it can be read back. */
  lemma ExitMessageRoundTrip(code: Option<int>)
    ensures ExitCodeOf(ExitPrefix + CodeText(code)) == Some(code)
  {
    var msg := ExitPrefix + CodeText(code);
    assert msg[|ExitPrefix|..] == CodeText(code);
    if code.Some? {
      assert ParseInt("null") == None;
    }
  }

  /** The settled outcome of the run: stdout on a zero exit; otherwise stderr,
      or, when stderr is empty, a message carrying the exit code; the spawn
      error as is; a timeout message when the timer wins. */
  function Settle(e: ProcessEvent): (r: Result<string>)
    ensures r.Ok? <==> e.Closed? && e.code == Some(0)
    ensures r.Ok? ==> r.value == e.stdout
    ensures e.Closed? && e.code != Some(0) && e.stderr != "" ==> r.msg == e.stderr
    ensures e.Closed? && e.code != Some(0) && e.stderr == "" ==> ExitCodeOf(r.msg) == Some(e.code)
    ensures e.SpawnFailed? ==> r.msg == e.message
  {
    match e
    case Closed(code, out, err) =>
      if code == Some(0) then Ok(out)
      else if err != "" then Err(err)
      else ExitMessageRoundTrip(code); Err(ExitPrefix + CodeText(code))
    case SpawnFailed(m) => Err(m)
    case DeadlineFired => Err(TimeoutMessage)
  }

  /** Two failed exits with empty stderr give the same message only when
      their codes agree. */
  lemma ExitMessagesDistinguishCodes(c1: Option<int>, c2: Option<int>, out1: string, out2: string)
    requires c1 != Some(0) && c2 != Some(0)
    requires Settle(Closed(c1, out1, "")) == Settle(Closed(c2, out2, ""))
    ensures c1 == c2
  {
  }

  /** A timeout is never mistaken for a generic exit failure. */
  lemma TimeoutIsNotAnExit(code: Option<int>, out: string)
    requires code != Some(0)
    ensures Settle(DeadlineFired) != Settle(Closed(code, out, ""))
  {
    assert ExitCodeOf(TimeoutMessage) == None by {
      assert !(ExitPrefix <= TimeoutMessage);
    }
  }
}

=== FILE: slave_client.dfy ===
/** Request shaping and error wrapping in `SlaveNodeManager.sendToSlave`
    (master-server.js:64-89). The HTTP exchange itself (axios) is a
    parameter: a function from the request to what the transport yields. */
module SlaveClient {
  import opened Values
  import opened Decimal
  import opened Fleet

  datatype Verb = Get | Post

  /** What `sendToSlave` hands to axios. */
  datatype HttpRequest = HttpRequest(
    verb: Verb,
    url: string,
    headers: seq<(string, string)>,
    body: Option<Json>,
    timeoutMs: nat)

  /** What the transport yields for a request: the parsed body of a
      successful response, or the message of the error it threw (refused
      connection, timeout, DNS failure, non-2xx status, ...). */
  datatype Transport = Delivered(body: Body) | Failed(message: string)

  /** Message thrown for an id the registry does not hold, before the id. */
  const NoSuchNodePrefix: string := "找不到節點: "
  /** Prefix of every wrapped transport error. */
  const CommFailurePrefix: string := "節點通信失敗: "
  /** What reading `slaveConfig.host` throws when a record has no `slaveConfig`. */
  const NoConfigMessage: string := "Cannot read properties of undefined (reading 'host')"

  /** `http://${host}:${port}${endpoint}` */
  function Url(cfg: SlaveConfig, endpoint: string): string {
    Scheme + cfg.host + ":" + NatToString(cfg.port) + endpoint
  }

  /** The JSON content type and the node's API key. */
  function Headers(cfg: SlaveConfig): seq<(string, string)> {
    [("Content-Type", "application/json"), ("X-API-Key", cfg.apiKey)]
  }

  /** The longest run of digits at the start of `s`. */
  function LeadingDigits(s: string): (d: string)
    ensures AllDigits(d) && d <= s
    ensures |d| < |s| ==> !IsDigit(s[|d|])
    decreases |s|
  {
    if |s| > 0 && IsDigit(s[0]) then [s[0]] + LeadingDigits(s[1..]) else ""
  }

  const Scheme: string := "http://"

  /** Reads host, port and path back out of an `http://host:port/path` URL. */
  function ParseUrl(url: string): Option<(string, nat, string)> {
    if Scheme <= url then ParseAuthority(url[|Scheme|..]) else None
  }

  /** Reads `host:port/path`: the host runs to the first colon, the port is
      the run of digits after it. */
  function ParseAuthority(rest: string): Option<(string, nat, string)> {
    match IndexOf(rest, ':')
    case None => None
    case Some(i) =>
      var afterColon := rest[i + 1..];
      var digits := LeadingDigits(afterColon);
      if digits == "" then None
      else Some((rest[..i], Value(digits), afterColon[|digits|..]))
  }

  /** The URL names the node's host, port and the endpoint, whenever the host
      has no colon and the endpoint does not start with a digit (every
      endpoint the server uses starts with "/"). */
  lemma UrlRoundTrip(cfg: SlaveConfig, endpoint: string)
    requires ':' !in cfg.host
    requires |endpoint| > 0 ==> !IsDigit(endpoint[0])
    ensures ParseUrl(Url(cfg, endpoint)) == Some((cfg.host, cfg.port, endpoint))
  {
    NatToStringValue(cfg.port);
    ParseUrlOf(cfg.host, NatToString(cfg.port), endpoint);
  }

  lemma ParseUrlOf(host: string, digits: string, endpoint: string)
    requires ':' !in host
    requires |digits| > 0 && AllDigits(digits)
    requires |endpoint| > 0 ==> !IsDigit(endpoint[0])
    ensures ParseUrl(Scheme + host + ":" + digits + endpoint) == Some((host, Value(digits), endpoint))
  {
    var rest := host + ":" + digits + endpoint;
    assert Scheme + host + ":" + digits + endpoint == Scheme + rest;
    assert (Scheme + rest)[|Scheme|..] == rest;
    ParseAuthorityOf(host, digits, endpoint);
  }

  lemma ParseAuthorityOf(host: string, digits: string, endpoint: string)
    requires ':' !in host
    requires |digits| > 0 && AllDigits(digits)
    requires |endpoint| > 0 ==> !IsDigit(endpoint[0])
    ensures ParseAuthority(host + ":" + digits + endpoint) == Some((host, Value(digits), endpoint))
  {
    var tail := digits + endpoint;
    assert host + ":" + digits + endpoint == host + ":" + tail;
    ColonSplit(host, tail);
    LeadingDigitsOf(digits, endpoint);
    assert tail[|digits|..] == endpoint;
  }

  /** The first colon of `host:tail` is the one after a colon-free host. */
  lemma ColonSplit(host: string, tail: string)
    requires ':' !in host
    ensures var rest := host + ":" + tail;
      IndexOf(rest, ':') == Some(|host|) && rest[..|host|] == host && rest[|host| + 1..] == tail
  {
    var rest := host + ":" + tail;
    assert rest[|host|] == ':';
    assert forall j :: 0 <= j < |host| ==> rest[j] == host[j];
    IndexOfFirst(rest, ':', |host|);
    assert rest[..|host|] == host;
    assert rest[|host| + 1..] == tail;
  }

  /** A digit run followed by a non-digit is read off exactly. */
  lemma {:induction false} LeadingDigitsOf(digits: string, tail: string)
    requires AllDigits(digits)
    requires |tail| > 0 ==> !IsDigit(tail[0])
    ensures LeadingDigits(digits + tail) == digits
    decreases |digits|
  {
    if |digits| > 0 {
      LeadingDigitsOf(digits[1..], tail);
      assert (digits + tail)[1..] == digits[1..] + tail;
      assert [digits[0]] + digits[1..] == digits;
    } else {
      assert digits + tail == tail;
    }
  }

  /** The request for `sendToSlave(id, endpoint, data, timeout)`, or the
      error it throws before reaching the transport. */
  function ShapeRequest(reg: Registry, id: string, endpoint: string, data: Json, timeout: nat): (r: Result<HttpRequest>)
    ensures Lookup(reg, id).None? ==> r == Err(NoSuchNodePrefix + id)
    ensures Lookup(reg, id).Some? && Lookup(reg, id).value.node.slaveConfig.None? ==> r == Err(NoConfigMessage)
    ensures r.Ok? <==> Lookup(reg, id).Some? && Lookup(reg, id).value.node.slaveConfig.Some?
    ensures r.Ok? ==> (r.value.verb == Get <==> !Truthy(data))
    ensures r.Ok? ==> r.value.body == (if Truthy(data) then Some(data) else None)
    ensures r.Ok? ==> r.value.timeoutMs == timeout
    ensures r.Ok? ==> var cfg := Lookup(reg, id).value.node.slaveConfig.value;
      && r.value.headers == Headers(cfg)
      && ("Content-Type", "application/json") in r.value.headers
      && ("X-API-Key", cfg.apiKey) in r.value.headers
      && r.value.url == Url(cfg, endpoint)
  {
    match Lookup(reg, id)
    case None => Err(NoSuchNodePrefix + id)
    case Some(t) =>
      match t.node.slaveConfig
      case None => Err(NoConfigMessage)
      case Some(cfg) =>
        var url := Url(cfg, endpoint);
        if Truthy(data) then Ok(HttpRequest(Post, url, Headers(cfg), Some(data), timeout))
        else Ok(HttpRequest(Get, url, Headers(cfg), None, timeout))
  }

  /** `sendToSlave`: the reply body, or an error. Transport errors are all
      wrapped with one prefix; an unknown id is reported unwrapped. */
  function SendToSlave(reg: Registry, id: string, endpoint: string, data: Json, timeout: nat,
                       net: HttpRequest -> Transport): (r: Result<Body>)
    ensures Lookup(reg, id).None? ==> r == Err(NoSuchNodePrefix + id)
    ensures r.Ok? ==>
      && ShapeRequest(reg, id, endpoint, data, timeout).Ok?
      && net(ShapeRequest(reg, id, endpoint, data, timeout).value) == Delivered(r.value)
    ensures ShapeRequest(reg, id, endpoint, data, timeout).Err? ==>
      r == Err(ShapeRequest(reg, id, endpoint, data, timeout).msg)
    ensures ShapeRequest(reg, id, endpoint, data, timeout).Ok? ==>
      var reply := net(ShapeRequest(reg, id, endpoint, data, timeout).value);
      && (reply.Delivered? ==> r == Ok(reply.body))
      && (reply.Failed? ==> r == Err(CommFailurePrefix + reply.message))
  {
    match ShapeRequest(reg, id, endpoint, data, timeout)
    case Err(m) => Err(m)
    case Ok(req) =>
      match net(req)
      case Delivered(body) => Ok(body)
      case Failed(m) => Err(CommFailurePrefix + m)
  }

  /** The request depends only on the node copies, not on their health. */
  lemma ShapeDependsOnCopies(reg1: Registry, reg2: Registry, id: string, endpoint: string, data: Json, timeout: nat)
    requires Copies(reg1) == Copies(reg2)
    ensures ShapeRequest(reg1, id, endpoint, data, timeout) == ShapeRequest(reg2, id, endpoint, data, timeout)
  {
    assert Ids(reg1) == Ids(reg2) by {
      assert forall k :: 0 <= k < |reg1| ==> Ids(reg1)[k] == Copies(reg1)[k].id;
      assert forall k :: 0 <= k < |reg2| ==> Ids(reg2)[k] == Copies(reg2)[k].id;
    }
    match IndexOf(Ids(reg1), id)
    case None =>
    case Some(k) =>
      assert reg1[k].node == Copies(reg1)[k] == reg2[k].node;
  }
}

=== FILE: target.dfy ===
/** The target validator `isValidTarget` (master-server.js:155-166): a length
    bound, a dotted-quad IPv4 pattern or a hostname pattern, and a denylist of
    fragments that disqualify a target wherever they occur in it.

    Both regular expressions are anchored (`^…$`, no multiline flag) and are
    built from pieces separated by literal dots, so each is modelled through
    `Split`, the dot-separated pieces of the string. The regex-shaped forms
    (`HostnamePattern`, `Ipv4Pattern`: some list of pieces joined with dots)
    are proved equal to the split-based ones. */
module Target {
  import opened Values
  import opened Decimal

  /** Longest target accepted, in UTF-16 code units (`target.length`). */
  const MaxTargetLength := 253
  /** Longest hostname label the pattern admits: 1 + 61 + 1 characters. */
  const MaxLabelLength := 63

  predicate IsAlpha(c: char) {
    'a' <= c <= 'z' || 'A' <= c <= 'Z'
  }

  /** `[a-zA-Z0-9]` */
  predicate IsAlnum(c: char) {
    IsAlpha(c) || IsDigit(c)
  }

  /** `[a-zA-Z0-9\-]` */
  predicate IsLabelChar(c: char) {
    IsAlnum(c) || c == '-'
  }

  /** `[a-zA-Z0-9]([a-zA-Z0-9\-]{0,61}[a-zA-Z0-9])?`: one alphanumeric, or an
      alphanumeric, up to 61 label characters and a closing alphanumeric. */
  predicate IsLabel(l: string) {
    && 1 <= |l| <= MaxLabelLength
    && IsAlnum(l[0])
    && IsAlnum(l[|l| - 1])
    && forall i :: 0 <= i < |l| ==> IsLabelChar(l[i])
  }

  /** `25[0-5]|2[0-4][0-9]|[01]?[0-9][0-9]?`, alternative by alternative.
      The last alternative is one or two digits, or three digits led by 0 or 1. */
  predicate IsOctet(o: string) {
    || (|o| == 3 && o[0] == '2' && o[1] == '5' && '0' <= o[2] <= '5')
    || (|o| == 3 && o[0] == '2' && '0' <= o[1] <= '4' && IsDigit(o[2]))
    || (1 <= |o| <= 2 && AllDigits(o))
    || (|o| == 3 && (o[0] == '0' || o[0] == '1') && IsDigit(o[1]) && IsDigit(o[2]))
  }

  /** The length JavaScript reports: characters outside the Basic
      Multilingual Plane take two UTF-16 code units. */
  function Utf16Length(s: string): nat
    decreases |s|
  {
    if |s| == 0 then 0
    else Utf16Length(s[..|s| - 1]) + (if s[|s| - 1] as int > 0xFFFF then 2 else 1)
  }

  /** The dot-separated pieces of `s`, read left to right: a dot opens a new
      (empty) piece, any other character extends the last piece. */
  function Split(s: string): (parts: seq<string>)
    ensures |parts| >= 1
    decreases |s|
  {
    if |s| == 0 then [""]
    else
      var parts := Split(s[..|s| - 1]);
      var c := s[|s| - 1];
      if c == '.' then parts + [""]
      else parts[..|parts| - 1] + [parts[|parts| - 1] + [c]]
  }

  function Last(parts: seq<string>): string
    requires |parts| >= 1
  {
    parts[|parts| - 1]
  }

  predicate DotFree(s: string) {
    forall i :: 0 <= i < |s| ==> s[i] != '.'
  }

  /** The hostname pattern, decided on the pieces: every piece is a label. */
  predicate HostnameMatch(s: string) {
    var parts := Split(s);
    forall k :: 0 <= k < |parts| ==> IsLabel(parts[k])
  }

  /** The IPv4 pattern, decided on the pieces: exactly four octets. */
  predicate Ipv4Match(s: string) {
    var parts := Split(s);
    |parts| == 4 && forall k :: 0 <= k < 4 ==> IsOctet(parts[k])
  }

  /** The hostname regex read literally: a label, then any number of
      `\.label` groups. */
  ghost predicate HostnamePattern(s: string) {
    exists labels: seq<string> ::
      && |labels| >= 1
      && (forall k :: 0 <= k < |labels| ==> IsLabel(labels[k]))
      && JoinWith(labels, ".") == s
  }

  /** The IPv4 regex read literally: three `octet\.` groups and an octet. */
  ghost predicate Ipv4Pattern(s: string) {
    exists octets: seq<string> ::
      && |octets| == 4
      && (forall k :: 0 <= k < 4 ==> IsOctet(octets[k]))
      && JoinWith(octets, ".") == s
  }

  /** `isValidTarget(target)` with `blacklistedTargets` given as `denylist`. */
  function IsValidTarget(target: string, denylist: seq<string>): (valid: bool)
    ensures valid ==> |target| <= MaxTargetLength && HostnameMatch(target)
    ensures valid ==> forall k :: 0 <= k < |denylist| ==> !Includes(target, denylist[k])
  {
    Utf16LengthBounds(target);
    assert Ipv4Match(target) ==> HostnameMatch(target) by {
      if Ipv4Match(target) {
        Ipv4ImpliesHostname(target);
      }
    }
    && Utf16Length(target) <= MaxTargetLength
    && (Ipv4Match(target) || HostnameMatch(target))
    && !(exists k :: 0 <= k < |denylist| && Includes(target, denylist[k]))
  }

  // ---------------------------------------------------------------------
  // Pieces: `Split` and joining with dots undo each other.

  /** Appending a dot-free run extends the last piece and nothing else. */
  lemma {:induction false} SplitExtend(x: string, run: string)
    requires DotFree(run)
    ensures var p := Split(x);
      Split(x + run) == p[..|p| - 1] + [Last(p) + run]
    decreases |run|
  {
    var p := Split(x);
    if |run| == 0 {
      assert x + run == x;
      assert Last(p) + run == Last(p);
      assert p[..|p| - 1] + [Last(p)] == p;
    } else {
      var front := run[..|run| - 1];
      SplitExtend(x, front);
      assert (x + run)[..|x + run| - 1] == x + front;
      assert Last(p) + front + [run[|run| - 1]] == Last(p) + run;
    }
  }

  /** A dot followed by a dot-free run adds exactly that run as a new piece. */
  lemma SplitDotRun(x: string, run: string)
    requires DotFree(run)
    ensures Split(x + "." + run) == Split(x) + [run]
  {
    var p := Split(x);
    var y := x + ".";
    SplitDot(x);
    SplitExtend(y, run);
    assert (p + [""])[..|p|] == p;
    assert "" + run == run;
  }

  /** A dot opens a new, empty piece. */
  lemma SplitDot(x: string)
    ensures Split(x + ".") == Split(x) + [""]
  {
    assert (x + ".")[..|x|] == x;
  }

  /** A dot-free string is a single piece. */
  lemma SplitDotFree(run: string)
    requires DotFree(run)
    ensures Split(run) == [run]
  {
    SplitExtend("", run);
    assert "" + run == run;
  }

  /** No piece contains a dot. */
  lemma {:induction false} SplitPiecesDotFree(s: string)
    ensures forall k :: 0 <= k < |Split(s)| ==> DotFree(Split(s)[k])
    decreases |s|
  {
    if |s| > 0 {
      SplitPiecesDotFree(s[..|s| - 1]);
    }
  }

  /** Joining the pieces with dots restores the string. */
  lemma {:induction false} JoinSplit(s: string)
    ensures JoinWith(Split(s), ".") == s
    decreases |s|
  {
    if |s| > 0 {
      var x := s[..|s| - 1];
      JoinSplit(x);
      assert s == x + [s[|s| - 1]];
      JoinSplitStep(x, s[|s| - 1]);
    }
  }

  /** One more character keeps joining and splitting inverse. */
  lemma JoinSplitStep(x: string, c: char)
    requires JoinWith(Split(x), ".") == x
    ensures JoinWith(Split(x + [c]), ".") == x + [c]
  {
    var s := x + [c];
    assert s[..|s| - 1] == x && s[|s| - 1] == c;
    var p := Split(x);
    if c == '.' {
      assert Split(s) == p + [""];
      JoinWithSnoc(p, "", ".");
    } else {
      var q := Split(s);
      assert q == p[..|p| - 1] + [Last(p) + [c]];
      if |p| == 1 {
        assert JoinWith(q, ".") == Last(p) + [c];
      } else {
        assert q[..|q| - 1] == p[..|p| - 1];
        assert JoinWith(p, ".") == JoinWith(p[..|p| - 1], ".") + "." + Last(p);
      }
    }
  }

  /** Splitting a dot-joined list of dot-free pieces gives the list back. */
  lemma {:induction false} SplitJoin(parts: seq<string>)
    requires |parts| >= 1
    requires forall k :: 0 <= k < |parts| ==> DotFree(parts[k])
    ensures Split(JoinWith(parts, ".")) == parts
    decreases |parts|
  {
    if |parts| == 1 {
      SplitDotFree(parts[0]);
    } else {
      var front := parts[..|parts| - 1];
      SplitJoin(front);
      SplitDotRun(JoinWith(front, "."), Last(parts));
      assert front + [Last(parts)] == parts;
    }
  }

  // ---------------------------------------------------------------------
  // The split-based predicates are the regular expressions.

  lemma LabelDotFree(l: string)
    requires IsLabel(l)
    ensures DotFree(l)
  {
    forall i | 0 <= i < |l| ensures l[i] != '.' {
      assert IsLabelChar(l[i]);
    }
  }

  lemma OctetDotFree(o: string)
    requires IsOctet(o)
    ensures DotFree(o)
  {
    forall i | 0 <= i < |o| ensures o[i] != '.' {
      assert IsDigit(o[i]);
    }
  }

  /** The hostname regex matches exactly when every piece is a label. */
  lemma HostnameMatchIsPattern(s: string)
    ensures HostnameMatch(s) <==> HostnamePattern(s)
  {
    if HostnameMatch(s) {
      JoinSplit(s);
      assert JoinWith(Split(s), ".") == s;
    }
    if HostnamePattern(s) {
      var labels: seq<string> :| |labels| >= 1
        && (forall k :: 0 <= k < |labels| ==> IsLabel(labels[k]))
        && JoinWith(labels, ".") == s;
      forall k | 0 <= k < |labels| ensures DotFree(labels[k]) {
        LabelDotFree(labels[k]);
      }
      SplitJoin(labels);
    }
  }

  /** The IPv4 regex matches exactly when there are four pieces, each an octet. */
  lemma Ipv4MatchIsPattern(s: string)
    ensures Ipv4Match(s) <==> Ipv4Pattern(s)
  {
    if Ipv4Match(s) {
      JoinSplit(s);
      assert JoinWith(Split(s), ".") == s;
    }
    if Ipv4Pattern(s) {
      var octets: seq<string> :| |octets| == 4
        && (forall k :: 0 <= k < 4 ==> IsOctet(octets[k]))
        && JoinWith(octets, ".") == s;
      forall k | 0 <= k < |octets| ensures DotFree(octets[k]) {
        OctetDotFree(octets[k]);
      }
      SplitJoin(octets);
    }
  }

  /** Every octet is a label: one to three digits. */
  lemma OctetIsLabel(o: string)
    requires IsOctet(o)
    ensures IsLabel(o)
  {
    forall i | 0 <= i < |o| ensures IsDigit(o[i]) {
    }
  }

  /** Every IPv4 match is a hostname match, so the IPv4 alternative never
      changes the verdict. */
  lemma Ipv4ImpliesHostname(s: string)
    requires Ipv4Match(s)
    ensures HostnameMatch(s)
  {
    var parts := Split(s);
    forall k | 0 <= k < |parts| ensures IsLabel(parts[k]) {
      OctetIsLabel(parts[k]);
    }
  }

  /** An octet is one to three digits whose value is at most 255; leading
      zeros are allowed ("007"). */
  lemma OctetIffSmallNumber(o: string)
    ensures IsOctet(o) <==> (1 <= |o| <= 3 && AllDigits(o) && Value(o) <= 255)
  {
    if 1 <= |o| <= 3 && AllDigits(o) {
      var n := |o|;
      if n == 1 {
        assert Value(o) == DigitValue(o[0]) by {
          assert o[..0] == [];
        }
      } else if n == 2 {
        assert Value(o) == DigitValue(o[0]) * 10 + DigitValue(o[1]) by {
          assert o[..1][..0] == [];
        }
      } else {
        var a, b, c := DigitValue(o[0]), DigitValue(o[1]), DigitValue(o[2]);
        assert Value(o) == a * 100 + b * 10 + c by {
          assert o[..2][..1] == o[..1];
          assert o[..1][..0] == [];
          assert Value(o[..1]) == a;
          assert Value(o[..2]) == a * 10 + b;
          assert Value(o) == Value(o[..2]) * 10 + c;
        }
        assert IsOctet(o) <==> (a < 2 || (a == 2 && (b < 5 || (b == 5 && c <= 5))));
      }
    }
  }

  // ---------------------------------------------------------------------
  // The validator.

  /** Hostname matches are plain ASCII. */
  lemma HostnameAscii(s: string)
    requires HostnameMatch(s)
    ensures IsAscii(s)
  {
    HostnameMatchIsPattern(s);
    var parts := Split(s);
    JoinSplit(s);
    AsciiJoin(parts);
  }

  lemma {:induction false} AsciiJoin(parts: seq<string>)
    requires forall k :: 0 <= k < |parts| ==> IsLabel(parts[k])
    ensures IsAscii(JoinWith(parts, "."))
    decreases |parts|
  {
    if |parts| >= 1 {
      var l := parts[|parts| - 1];
      assert forall i :: 0 <= i < |l| ==> IsLabelChar(l[i]);
      if |parts| > 1 {
        var front := JoinWith(parts[..|parts| - 1], ".");
        AsciiJoin(parts[..|parts| - 1]);
        assert IsAscii(front);
        var j := front + "." + l;
        forall i | 0 <= i < |j| ensures j[i] as int < 128 {
          if i < |front| {
            assert j[i] == front[i];
            assert front[i] as int < 128;
          } else if i > |front| {
            assert j[i] == l[i - |front| - 1];
            assert IsLabelChar(l[i - |front| - 1]);
          } else {
            assert j[i] == '.';
          }
        }
      }
    }
  }

  predicate IsAscii(s: string) {
    forall i :: 0 <= i < |s| ==> s[i] as int < 128
  }

  /** JavaScript's length never undercounts, and is exact on ASCII text. */
  lemma {:induction false} Utf16LengthBounds(s: string)
    ensures Utf16Length(s) >= |s|
    ensures IsAscii(s) ==> Utf16Length(s) == |s|
    decreases |s|
  {
    if |s| > 0 {
      Utf16LengthBounds(s[..|s| - 1]);
    }
  }

  /** The validator, stated without the executable helpers: a target is
      valid exactly when it is at most 253 characters, matches the hostname
      regex, and no denylist entry occurs in it. The IPv4 alternative and the
      UTF-16 length play no part in the verdict. */
  lemma ValidTargetIff(target: string, denylist: seq<string>)
    ensures IsValidTarget(target, denylist) <==>
      && |target| <= MaxTargetLength
      && HostnamePattern(target)
      && forall k, i :: 0 <= k < |denylist| ==> !OccursAt(target, denylist[k], i)
  {
    HostnameMatchIsPattern(target);
    Utf16LengthBounds(target);
    if Ipv4Match(target) {
      Ipv4ImpliesHostname(target);
    }
    if HostnameMatch(target) {
      HostnameAscii(target);
    }
    forall k | 0 <= k < |denylist| {
      IncludesIffOccurs(target, denylist[k]);
    }
  }

  /** Over-long targets and targets holding a denylisted fragment are
      rejected, whatever their syntax. */
  lemma RejectedTargets(target: string, denylist: seq<string>, k: int, i: int)
    requires |target| > MaxTargetLength || (0 <= k < |denylist| && OccursAt(target, denylist[k], i))
    ensures !IsValidTarget(target, denylist)
  {
    ValidTargetIff(target, denylist);
  }

  /** With an empty denylist only the length and the grammar decide. */
  lemma EmptyDenylist(target: string)
    ensures IsValidTarget(target, []) <==> |target| <= MaxTargetLength && HostnamePattern(target)
  {
    ValidTargetIff(target, []);
  }

  /** The empty string matches neither pattern. */
  lemma EmptyTargetRejected(denylist: seq<string>)
    ensures !IsValidTarget("", denylist)
  {
    assert Split("") == [""];
    assert !IsLabel(Split("")[0]);
    assert !HostnameMatch("");
    assert !Ipv4Match("");
  }

  /** Four dot-free runs joined by dots are four pieces. */
  lemma FourPieces(a: string, b: string, c: string, d: string)
    requires DotFree(a) && DotFree(b) && DotFree(c) && DotFree(d)
    ensures Split(a + "." + b + "." + c + "." + d) == [a, b, c, d]
  {
    SplitDotFree(a);
    var x1 := a + "." + b;
    SplitDotRun(a, b);
    var x2 := x1 + "." + c;
    SplitDotRun(x1, c);
    SplitDotRun(x2, d);
  }

  /** The pieces of "999.1.1.1". */
  lemma QuadPieces()
    ensures Split("999.1.1.1") == ["999", "1", "1", "1"]
  {
    assert DotFree("999") && DotFree("1");
    FourPieces("999", "1", "1", "1");
    assert "999" + "." + "1" + "." + "1" + "." + "1" == "999.1.1.1";
  }

  /** The dotted quad "999.1.1.1" is not an IPv4 address but is accepted:
      the hostname pattern admits all-digit labels. */
  lemma OutOfRangeQuadAccepted()
    ensures !Ipv4Match("999.1.1.1")
    ensures IsValidTarget("999.1.1.1", [])
  {
    QuadPieces();
    var parts := Split("999.1.1.1");
    assert IsLabel(parts[0]) && IsLabel(parts[1]);
    assert HostnameMatch("999.1.1.1");
    Utf16LengthBounds("999.1.1.1");
    assert "999"[..2] == "99" && "99"[..1] == "9" && "9"[..0] == "";
    assert Value("999") == 999;
    OctetIffSmallNumber("999");
  }

  // ---------------------------------------------------------------------
  // `hostnameRegex.test(s)` as a single left-to-right scan.

  /** A piece that can still grow into a label. */
  ghost predicate IsLabelPrefix(p: string) {
    && |p| <= MaxLabelLength
    && (|p| > 0 ==> IsAlnum(p[0]))
    && forall i :: 0 <= i < |p| ==> IsLabelChar(p[i])
  }

  /** Every finished piece of `s` is a label and the open (last) piece can
      still become one: `s` can be extended to a hostname match. */
  ghost predicate Viable(s: string) {
    var parts := Split(s);
    && (forall k :: 0 <= k < |parts| - 1 ==> IsLabel(parts[k]))
    && IsLabelPrefix(Last(parts))
  }

  /** How one more character keeps a viable prefix viable. */
  lemma ViableStep(s: string, c: char)
    requires Viable(s)
    ensures c == '.' ==> Last(Split(s + [c])) == ""
    ensures c != '.' ==> Last(Split(s + [c])) == Last(Split(s)) + [c]
    ensures Viable(s + [c]) <==>
      if c == '.' then IsLabel(Last(Split(s))) else IsLabelPrefix(Last(Split(s)) + [c])
  {
    var p := Split(s);
    assert (s + [c])[..|s|] == s;
    var q := Split(s + [c]);
    if c == '.' {
      assert q == p + [""];
      assert forall k :: 0 <= k < |p| ==> q[k] == p[k];
    } else {
      assert q == p[..|p| - 1] + [Last(p) + [c]];
      assert forall k :: 0 <= k < |p| - 1 ==> q[k] == p[k];
    }
  }

  /** Dropping the last character keeps a string viable. */
  lemma ViableShrinks(t: string, c: char)
    requires Viable(t + [c])
    ensures Viable(t)
  {
    var p := Split(t);
    assert (t + [c])[..|t|] == t;
    var q := Split(t + [c]);
    if c == '.' {
      assert q == p + [""];
      assert forall k :: 0 <= k < |p| ==> q[k] == p[k];
      assert IsLabel(q[|p| - 1]);
    } else {
      assert q == p[..|p| - 1] + [Last(p) + [c]];
      assert forall k :: 0 <= k < |p| - 1 ==> q[k] == p[k];
      assert forall i :: 0 <= i < |Last(p)| ==> Last(p)[i] == Last(q)[i];
    }
  }

  /** A viable string's prefixes are all viable. */
  lemma {:induction false} ViablePrefixes(s: string, j: nat)
    requires Viable(s) && j <= |s|
    ensures Viable(s[..j])
    decreases |s| - j
  {
    if j < |s| {
      ViablePrefixes(s, j + 1);
      assert s[..j + 1] == s[..j] + [s[j]];
      ViableShrinks(s[..j], s[j]);
    } else {
      assert s[..j] == s;
    }
  }

  /** A prefix that is not viable rules the whole string out. */
  lemma DeadPrefix(s: string, j: nat)
    requires j <= |s| && !Viable(s[..j])
    ensures !HostnameMatch(s)
  {
    if HostnameMatch(s) {
      ViablePrefixes(s, j);
    }
  }

  /** What the scan tracks about a viable prefix `t`: the length of its
      open piece and whether that piece ends in an alphanumeric. */
  ghost predicate ScanState(t: string, len: nat, endsAlnum: bool) {
    && Viable(t)
    && len == |Last(Split(t))|
    && (endsAlnum <==> len > 0 && IsAlnum(Last(Split(t))[len - 1]))
  }

  /** One step of the scan: which characters keep the prefix viable, and
      the state after them. */
  lemma ScanStep(t: string, c: char, len: nat, endsAlnum: bool)
    requires ScanState(t, len, endsAlnum)
    ensures c == '.' ==> (Viable(t + [c]) <==> endsAlnum)
    ensures c == '.' && endsAlnum ==> ScanState(t + [c], 0, false)
    ensures c != '.' ==>
      (Viable(t + [c]) <==> (IsAlnum(c) && len < MaxLabelLength) || (c == '-' && 0 < len < MaxLabelLength))
    ensures c != '.' && Viable(t + [c]) ==> ScanState(t + [c], len + 1, IsAlnum(c))
  {
    ViableStep(t, c);
    var open := Last(Split(t));
    if c != '.' {
      var next := open + [c];
      assert next[len] == c;
      assert len > 0 ==> next[0] == open[0];
      assert forall i :: 0 <= i < len ==> next[i] == open[i];
    }
  }

  /** At the end of the input a viable string matches exactly when its
      open piece is a finished label. */
  lemma ScanEnd(s: string, len: nat, endsAlnum: bool)
    requires ScanState(s, len, endsAlnum)
    ensures HostnameMatch(s) <==> endsAlnum
  {
    var parts := Split(s);
    if endsAlnum {
      assert IsLabel(Last(parts));
    }
  }

  /** One step of the scan on character `c`: the new length of the open
      piece and whether it ends in an alphanumeric, or None when `c` cannot
      continue a hostname. */
  function ScanNext(c: char, len: nat, endsAlnum: bool): Option<(nat, bool)> {
    if c == '.' then (if endsAlnum then Some((0, false)) else None)
    else if IsAlnum(c) && len < MaxLabelLength then Some((len + 1, true))
    else if c == '-' && 0 < len < MaxLabelLength then Some((len + 1, false))
    else None
  }

  /** A scan step is exact: it stops precisely when the longer prefix is
      no longer viable, and otherwise tracks the longer prefix. */
  lemma ScanNextExact(t: string, c: char, len: nat, endsAlnum: bool)
    requires ScanState(t, len, endsAlnum)
    ensures ScanNext(c, len, endsAlnum).None? <==> !Viable(t + [c])
    ensures ScanNext(c, len, endsAlnum).Some? ==>
      ScanState(t + [c], ScanNext(c, len, endsAlnum).value.0, ScanNext(c, len, endsAlnum).value.1)
  {
    ScanStep(t, c, len, endsAlnum);
  }

  /** The scan keeps the length of the open piece and whether it ends in an
      alphanumeric; a dot closes the piece, and any character that cannot
      continue a label stops the scan. */
  method MatchHostname(s: string) returns (matched: bool)
    ensures matched <==> HostnameMatch(s)
  {
    var i := 0;
    var len := 0;
    var endsAlnum := false;
    assert s[..0] == "";
    while i < |s|
      invariant 0 <= i <= |s|
      invariant ScanState(s[..i], len, endsAlnum)
    {
      assert s[..i + 1] == s[..i] + [s[i]];
      ScanNextExact(s[..i], s[i], len, endsAlnum);
      var next := ScanNext(s[i], len, endsAlnum);
      if next.None? {
        DeadPrefix(s, i + 1);
        return false;
      }
      len, endsAlnum := next.value.0, next.value.1;
      i := i + 1;
    }
    assert s[..i] == s;
    ScanEnd(s, len, endsAlnum);
    matched := endsAlnum;
  }
}

=== FILE: values.dfy ===
/** Values shared by every part of the master server model: optional values,
    settled results, the JSON values that cross the HTTP boundary, JavaScript
    truthiness, and the two string operations the server relies on
    (`String.prototype.includes` and `Array.prototype.join`). */
module Values {

  /** `undefined`/`null` versus a present value. */
  datatype Option<+T> = None | Some(value: T)

  /** A settled promise: fulfilled with a value, or rejected with an Error
      whose message is `msg`. */
  datatype Result<+T> = Ok(value: T) | Err(msg: string)

  /** JSON values. Numbers are integers here (see README, Left out). */
  datatype Json =
    | JNull
    | JBool(b: bool)
    | JNum(n: int)
    | JStr(s: string)
    | JArr(items: seq<Json>)
    | JObj(fields: map<string, Json>)

  /** A JSON object, as a response body or a parsed remote reply. */
  type Body = map<string, Json>

  /** JavaScript truthiness of a JSON value: `null`, `false`, `0` and `""`
      are falsy, every array and object is truthy. */
  function Truthy(j: Json): (t: bool)
    ensures !t <==> j == JNull || j == JBool(false) || j == JNum(0) || j == JStr("")
  {
    match j
    case JNull => false
    case JBool(b) => b
    case JNum(n) => n != 0
    case JStr(s) => s != ""
    case JArr(_) => true
    case JObj(_) => true
  }

  /** Truthiness of an optional string request field: a missing field
      (`undefined`) and the empty string are both falsy. */
  function Present(s: Option<string>): (p: bool)
    ensures !p <==> s == None || s == Some("")
  {
    s.Some? && s.value != ""
  }

  /** `frag` occurs in `s` starting at index `i`. */
  ghost predicate OccursAt(s: string, frag: string, i: int) {
    0 <= i && i + |frag| <= |s| && s[i..i + |frag|] == frag
  }

  /** `s.includes(frag)`: a search that tries every start position in turn. */
  function Includes(s: string, frag: string): (found: bool)
    ensures frag <= s ==> found
    ensures found ==> |frag| <= |s|
    decreases |s|
  {
    frag <= s || (|s| > 0 && Includes(s[1..], frag))
  }

  /** Whatever the search finds really occurs in `s`. */
  lemma {:induction false} IncludesSound(s: string, frag: string)
    requires Includes(s, frag)
    ensures exists i :: OccursAt(s, frag, i)
    decreases |s|
  {
    if frag <= s {
      assert OccursAt(s, frag, 0);
    } else {
      IncludesSound(s[1..], frag);
      var i :| OccursAt(s[1..], frag, i);
      assert s[1..][i..i + |frag|] == s[i + 1..i + 1 + |frag|];
      assert OccursAt(s, frag, i + 1);
    }
  }

  /** Every occurrence of `frag` in `s` is found by the search. */
  lemma {:induction false} IncludesComplete(s: string, frag: string, i: int)
    requires OccursAt(s, frag, i)
    ensures Includes(s, frag)
    decreases |s|
  {
    if i == 0 {
      assert frag <= s;
    } else {
      assert s[1..][i - 1..i - 1 + |frag|] == s[i..i + |frag|];
      IncludesComplete(s[1..], frag, i - 1);
    }
  }

  /** The search finds `frag` exactly when it occurs somewhere in `s`; in
      particular the empty fragment occurs in every string. */
  lemma IncludesIffOccurs(s: string, frag: string)
    ensures Includes(s, frag) <==> exists i :: OccursAt(s, frag, i)
  {
    if Includes(s, frag) {
      IncludesSound(s, frag);
    }
    if i :| OccursAt(s, frag, i) {
      IncludesComplete(s, frag, i);
    }
  }

  /** `parts.join(sep)`: the parts in order with `sep` between neighbours. */
  function JoinWith(parts: seq<string>, sep: string): string
    decreases |parts|
  {
    if |parts| == 0 then ""
    else if |parts| == 1 then parts[0]
    else JoinWith(parts[..|parts| - 1], sep) + sep + parts[|parts| - 1]
  }

  /** Joining one more part adds the separator and the part. */
  lemma JoinWithSnoc(parts: seq<string>, last: string, sep: string)
    requires |parts| >= 1
    ensures JoinWith(parts + [last], sep) == JoinWith(parts, sep) + sep + last
  {
    assert (parts + [last])[..|parts|] == parts;
  }

  /** The position of the first `x` in `xs` (`Array.prototype.findIndex`
      with an equality test), or None when `x` does not occur. */
  function IndexOf<T(==)>(xs: seq<T>, x: T): (r: Option<nat>)
    ensures r.Some? ==> r.value < |xs| && xs[r.value] == x
    ensures r.Some? ==> forall j :: 0 <= j < r.value ==> xs[j] != x
    ensures r.None? <==> x !in xs
    decreases |xs|
  {
    if |xs| == 0 then None
    else if xs[0] == x then Some(0)
    else match IndexOf(xs[1..], x)
      case None => None
      case Some(i) => Some(i + 1)
  }

  /** No element occurs twice (the keys of a JavaScript Map). */
  predicate Distinct<T(==)>(xs: seq<T>) {
    forall i, j :: 0 <= i < j < |xs| ==> xs[i] != xs[j]
  }

  /** In a sequence without repetitions, the position of an element is the
      only one holding it. */
  lemma IndexOfDistinct<T>(xs: seq<T>, k: nat)
    requires Distinct(xs) && k < |xs|
    ensures IndexOf(xs, xs[k]) == Some(k)
  {
  }

  /** A position holding `x` with no `x` before it is what `IndexOf` finds. */
  lemma IndexOfFirst<T>(xs: seq<T>, x: T, i: nat)
    requires i < |xs| && xs[i] == x
    requires forall j :: 0 <= j < i ==> xs[j] != x
    ensures IndexOf(xs, x) == Some(i)
  {
  }
}
